=== FILE: README.md ===
# ParseWiki tag extraction, modelled in Dafny

This project models the tag-extraction engine of ParseWiki:

- `ParserTags` finds the paired tags (`<name attrs>content</name>`) and the self-closing tags (`<name attrs/>`) of a wikitext string. It does this in two independent `preg_match_all` passes, one per pattern. It lists the paired records first, keeps those whose trimmed name matches an optional requested name, builds a `Tag` from each, and hands them out, either all of them or those with an exact name.
- `Tag` is the value entity. It has accessors, `setContent`, and `setAttributes`, which rebuilds the owned attribute store. `toString` reconstructs the markup.
- `ParserCitations` is `ParserTags` with the requested name fixed to `ref`.

Layout, one module per file:

- `optional.dfy` (`Optional`): the `Option` type for searches and matches that may find nothing.
- `text.dfy` (`Text`): the character classes of the two patterns, PHP's `trim()`, and ASCII case-insensitive equality.
- `lexing.dfy` (`Lexing`): the match record, and the three searches both patterns share: the alphanumeric run, the space run and the first `>`.
- `paired.dfy` (`PairedMatcher`): the paired pattern as a deterministic scanner at one position. It is proved equal to a declarative reading of the pattern.
- `self_closing.dfy` (`SelfClosingMatcher`): the same for the self-closing pattern. It includes the backtracking choice that decides how many spaces the name keeps.
- `scanner.dfy` (`Scanner`): `preg_match_all` as a leftmost, non-overlapping scan, characterised without the search, and `find_sub_tags`.
- `seqs.dfy` (`Seqs`): order-preserving filtering and the subsequence relation.
- `tag.dfy` (`DataModel`): the `Tag` entity and `toString`, plus the corrected `toString` (see Findings).
- `tags.dfy` (`Tags`): `parse`, the constructor and `getTags` of `ParserTags`.
- `citations.dfy` (`Citations`): `ParserCitations`.
- `roundtrip.dfy` (`Reconstruction`): what `toString` gives back to the extractor.
- `examples.dfy` (`Examples`): single-tag texts shaped like the repository's test inputs.

Differences between the model and the code:

- **Attribute store.** The `Attribute` class is not part of this model. `Tag` is generic in the store type `S`. Building the store from a fragment is a parameter `parse: string -> S`, and its `toString` is a parameter `render: S -> string`. Any assumption about them appears as a lemma hypothesis.
- **Opening tag of the paired form.** `toString` trims the name only in the closing tag (src/DataModel/Tag.php:130). The opening tag keeps the name as captured, and the model follows the code.

## Model

| member | source | states |
|---|---|---|
| Text.Trim | src/ParserTags.php:107 | `trim()` never lengthens the text, and its result neither begins nor ends with a space, tab, newline, carriage return, NUL or vertical tab (`Text.TrimIsInfix` says what is removed) |
| Text.TrimIsInfix | src/ParserTags.php:107 | `trim()` strips only whitespace and NUL: the result is the text left between a strippable prefix and a strippable suffix |
| Text.TrimNameSpaces | src/ParserTags.php:107 | trimming a name followed by any number of spaces gives the name back, so a self-closing name compares equal to its alphanumeric part |
| PairedMatcher.PairedAt | src/ParserTags.php:56 | a paired match at a position starts there, at a `<`, ends inside the text and is not self-closing (`PairedAtIsRegexMatch` says exactly when it exists) |
| PairedMatcher.PairedAtIsRegexMatch | src/ParserTags.php:55-60 | the paired scanner reports a match at a position exactly when the paired pattern matches there: maximal alphanumeric name, `>` or whitespace next, attributes up to the first `>`, lazy content up to the first case-insensitive closing tag for the name |
| PairedMatcher.PairedHitShape | src/ParserTags.php:56-69 | a paired record has an alphanumeric name, attributes empty or starting with whitespace and without `>`, original = `<name attrs>content</N'>` with `N'` the name up to case, no earlier closing tag in the content, and original is the matched span |
| SelfClosingMatcher.SelfClosingAt | src/ParserTags.php:74 | a self-closing match at a position starts there, ends inside the text and is self-closing (`SelfClosingAtIsRegexMatch` says exactly when it exists) |
| SelfClosingMatcher.SelfClosingAtIsRegexMatch | src/ParserTags.php:73-78 | the self-closing scanner reports exactly the match the backtracking engine prefers: the most spaces in the name, and the optional group taken before skipping it |
| SelfClosingMatcher.SelfHitShape | src/ParserTags.php:74-87 | a self-closing record has empty content, a name that is an alphanumeric run followed only by spaces, attributes empty or starting with whitespace, original = `<name attrs/>` with no `>` before its end, and it is the matched span |
| SelfClosingMatcher.TrimNameThenSpaces | src/ParserTags.php:107 | the trimmed name of a self-closing record is its alphanumeric run |
| Scanner.MatchAt | src/ParserTags.php:55-78 | a match starts at a `<`, is non-empty and lies inside the text, and carries the self-closing flag exactly for the self-closing pattern |
| Scanner.ScanFrom | src/ParserTags.php:55-78 | every reported match is the pattern's match at its own start, and matches are pairwise non-overlapping in increasing order |
| Scanner.ScanFromCovers | src/ParserTags.php:55-78 | every position where the pattern could match lies inside some reported match, so no match is skipped |
| Scanner.LeftmostScanUnique | src/ParserTags.php:55-78 | at most one list of matches is ordered, non-overlapping, made of genuine matches and covering every matchable position |
| Scanner.ScanFromIsLeftmostScan | src/ParserTags.php:55-78 | the scan's result is exactly the list with those properties (both directions) |
| Scanner.Pass | src/ParserTags.php:55-60 | one `preg_match_all` call over the whole text reports only matches of its pattern, each at its own start, non-overlapping and in increasing order (`PassIsLeftmostScan` says they are all of them) |
| Scanner.PassIsLeftmostScan | src/ParserTags.php:55-78 | each `preg_match_all` pass over the whole text is exactly the leftmost non-overlapping scan of its pattern |
| Scanner.PassWithoutLt | src/ParserTags.php:55-78 | a text with no `<` gives no match in either pass |
| Scanner.FindSubTags | src/ParserTags.php:50-91 | the first records, one per paired match, are not self-closing, and all the rest are |
| Scanner.FindSubTagsOrdered | src/ParserTags.php:62-88 | every paired record is listed before every self-closing record |
| Scanner.FindSubTagsShape | src/ParserTags.php:62-88 | every record's original text is a piece of the input, with the shape of the pattern that produced it |
| Seqs.Filter | src/ParserTags.php:106-118 | the selection is a subsequence of the input, every kept element passes the test, and exactly as many are kept as pass |
| Seqs.FilterIsExactSubsequence | src/ParserTags.php:106-118 | a list is the selection exactly when it is a subsequence of passing elements that has all of them (both directions) |
| Seqs.FilterFalseBeforeTrue | src/ParserTags.php:106-118 | selection keeps the relative order of two classes of elements |
| DataModel.NewTag | src/DataModel/Tag.php:46-54 | the constructor builds the attribute store from the fragment it stores |
| DataModel.AccessorsReturnArguments | src/DataModel/Tag.php:46-116 | `getName`, `getContent`, `getAttributes` and `getOriginalText` return the constructor's arguments verbatim and untrimmed, and `Attrs` returns the store built from the fragment |
| DataModel.SetContent | src/DataModel/Tag.php:96-99 | `setContent` replaces the content and leaves every other field and the store untouched |
| DataModel.SetAttributes | src/DataModel/Tag.php:107-111 | `setAttributes` replaces the fragment, rebuilds the store from it and leaves every other field untouched |
| DataModel.ConsistentPreserved | src/DataModel/Tag.php:107-111 | the store stays the one built from the current fragment through `setContent`, `setAttributes` and both together |
| DataModel.ToString | src/DataModel/Tag.php:123-131 | `toString` begins with `<` and ends with `>` |
| DataModel.ToStringThroughTrimmedStore | src/DataModel/Tag.php:125-130 | `toString` reads the store only through its trimmed rendering |
| DataModel.ToStringIntended | src/DataModel/Tag.php:123-131 | the corrected `toString` agrees with `toString` on every tag except a self-closing one with empty content |
| Tags.TagOf | src/ParserTags.php:110-116 | each tag takes the record's name, content, attributes, original text and flag, and its store is built from the fragment |
| Tags.BuildWanted | src/ParserTags.php:106-118 | the `foreach` that skips records whose trimmed name differs from a non-empty requested name computes exactly the tags of the order-preserving selection of wanted records |
| Tags.Parse | src/ParserTags.php:101-119 | the loop stores exactly one tag per extracted record whose trimmed name matches the requested one (or every record when none is requested), in extraction order |
| Tags.New | src/ParserTags.php:35-40 | the constructor keeps the text and requested name, and stores what `parse` computes |
| Tags.GetTags | src/ParserTags.php:130-143 | with a null, empty or `"0"` name it returns the stored list; otherwise it returns the stored tags whose untrimmed name is exactly the given one, in order |
| Tags.KeptIsExact | src/ParserTags.php:106-118 | the kept records are exactly the order-preserving subsequence of extracted records with the requested trimmed name, none left out (both directions) |
| Tags.KeptUnfiltered | src/ParserTags.php:107 | with no requested name every extracted record is kept |
| Tags.KeptComplete | src/ParserTags.php:106-118 | every extracted record with the requested trimmed name is kept |
| Tags.StoredEmptyWithoutName | src/ParserTags.php:106-118 | a requested name no record has gives an empty list, not an error |
| Tags.StoredTagsFromText | src/ParserTags.php:101-119 | every stored tag was built from an extracted record, its original text is a piece of the input, it has the requested trimmed name, and its store matches its fragment |
| Tags.NamedTagsOf | src/ParserTags.php:137-141 | selecting built tags by exact name is the same as building tags from the records selected by exact name |
| Tags.GetTagsOfUnfiltered | src/ParserTags.php:130-143 | selecting by exact name among the tags of an unfiltered construction, as `getTags(name)` does, gives the tags of exactly the extracted records whose untrimmed name is `name`, in order |
| Tags.StoredIsSubsequenceOfUnfiltered | src/ParserTags.php:106-118 | the tags stored for a requested name are an order-preserving selection of the tags stored for none |
| Citations.New | src/ParserCitations.php:32-36 | the constructor keeps the text and stores the tags `ParserTags` keeps for `ref` |
| Citations.Parse | src/ParserCitations.php:43-47 | the citations are `getTags()` of a `ParserTags` for `ref`, that is, every tag it stored |
| Citations.CitationsAreRefs | src/ParserCitations.php:45 | every citation's trimmed name is `ref`, its original text is a piece of the input, and it comes from an extracted record |
| Citations.CitationsComplete | src/ParserCitations.php:45 | every extracted record whose trimmed name is `ref` becomes a citation |
| Citations.PairedCitationsFirst | src/ParserCitations.php:43-47 | paired citations all come before self-closing ones |
| Citations.CitationsAmongAllTags | src/ParserCitations.php:43-47 | the citations are an order-preserving selection of all the tags of the text |
| Citations.GetCitationsAfterNew | src/ParserCitations.php:54-57 | after construction, `getCitations` returns only tags whose trimmed name is `ref`, every `ref` tag of the text, and in the order they appear among all its tags |
| Citations.UpperCaseRefExcluded | src/ParserTags.php:107 | the comparison is case-sensitive: a record named `REF` is no citation |
| Reconstruction.PairedTextRescan | src/DataModel/Tag.php:129-130 | the paired form is read back by the paired pattern as one whole-text match with the same name and content, and the attributes after one space |
| Reconstruction.PairedRoundTrip | src/DataModel/Tag.php:123-131 | an untouched extracted paired tag is written back as exactly its original text, provided its closing tag spells the name in the same case, its fragment is empty or exactly one space followed by text with no surrounding whitespace, and the store renders that text up to surrounding whitespace |
| Reconstruction.PairedToStringRescan | src/DataModel/Tag.php:129-130 | the paired pattern matches the whole `toString` of an untouched paired tag at its start, with the same name and content and with attributes that trim to the store's trimmed rendering, provided that rendering has no `>` |
| Reconstruction.SelfClosingToStringNotReadBack | src/DataModel/Tag.php:126-127 | `<ref name="x" />` is extracted as one tag named `ref` and written back as `<refname="x"/>`, in which neither pattern finds a tag, while the corrected form `<ref name="x"/>` is found |
| Reconstruction.SelfClosingIntendedRescan | src/DataModel/Tag.php:126-127 | the self-closing pattern matches the whole corrected self-closing form of an untouched self-closing tag at its start, as a self-closing tag with the same trimmed name and with attributes that trim to the store's trimmed rendering, provided that rendering has no `>` |
| Examples.OnePairedTag | tests/ParserTagsTest.php:10-20 | a text `<name a>content</name>` that closes with the same spelling of the name, with the fragment `a` after one space (or none), gives exactly that tag (its name, content, fragment and whole text), provided neither `a` nor the content holds a `<` and `a` does not end in `/`, since otherwise the self-closing pattern also finds a tag (`<a>x<br/></a>` gives two) |
| Examples.GalleryText | tests/ParserTagsTest.php:12 | the test text `<gallery>Images go here</gallery>` is the paired form of the name `gallery`, no attributes and that content |
| Examples.GalleryExample | tests/ParserTagsTest.php:10-20 | `<gallery>Images go here</gallery>` gives one tag whose trimmed name is `gallery` and whose content is `Images go here` |
| Examples.NoTags | tests/ParserTagsTest.php:122-127 | a text without `<` gives no tag, whatever name is requested |
| Examples.NoTagsExample | tests/ParserTagsTest.php:122-127 | `Plain text without any tags.` gives no tag |
| Examples.OnePairedTagToString | tests/ParserTagsTest.php:109-115 | the one tag of such a text is written back by `toString` as the text, provided also that `a` has no surrounding whitespace and the store renders the fragment ` a` as `a` up to surrounding whitespace (`<a b >x</a>` comes back as `<a b>x</a>`) |
| Examples.RefText | tests/ParserTagsTest.php:111 | the test text `<ref name="r1">Some ref</ref>` is the paired form of the name `ref`, the attributes `name="r1"` and the content `Some ref` |
| Examples.RefToStringExample | tests/ParserTagsTest.php:109-115 | `<ref name="r1">Some ref</ref>` gives one tag that `toString` writes back unchanged, when the store renders its fragment back up to surrounding whitespace |
| Examples.TimelineExample | tests/ParserTagsTest.php:62-72 | `<timeline type=bar height=100>Graph</timeline>` gives one tag whose trimmed name is `timeline`, whose content is `Graph` and whose fragment is the unquoted attributes after one space |
| Examples.MathExample | tests/ParserTagsTest.php:100-107 | `<math>E=mc^2</math>` gives one tag whose original text is the whole text |
| Examples.OneSelfClosingTag | tests/ParserTagsTest.php:47-60 | a text that is one self-closing tag `<name attrs/>` gives exactly one tag: that name, empty content, the attributes after one space, and the whole text |
| Examples.SourceExample | tests/ParserTagsTest.php:47-60 | `<source lang="bash" mode="console" />` gives exactly one self-closing tag whose trimmed name is `source`, whose content is empty and whose fragment is ` lang="bash" mode="console" ` |
| Examples.RefGroupExample | tests/ParserTagsTest.php:85-98 | `<ref name="x" group="g" />` gives exactly one self-closing tag whose trimmed name is `ref`, whose content is empty and whose fragment is ` name="x" group="g" ` |

## Left out

- The `Attribute` class is not part of this model. The store is built by a parameter `parse` and rendered by a parameter `render`. The attribute assertions of the tests (`has`, `get`, `set`) are not modelled.
- The `Parser` facade (src/Parser.php) builds parsers for categories, templates and links, none of which are part of this model.
- Only the two concrete patterns are modelled, as deterministic scanners; PCRE in general is not. `\s` is the fixed ASCII set (space, tab, LF, VT, FF, CR). Text is a sequence of single characters, as PHP sees bytes without the `u` flag. No UTF-8 or multibyte behaviour is modelled.
- PCRE's backtracking and recursion limits are not modelled. Neither is `preg_match_all` returning `false` when it hits them: the model always completes the scan.
- PHP's loose `!=` and `==` between numeric strings (src/ParserTags.php:107 and :138, where `"1"` equals `"01"`) are modelled as plain string equality.
- Default arguments are not modelled. `Tag`'s constructor defaults its attributes, original text and self-closing flag; the model's constructor takes every argument. The requested name of `ParserTags` and the name of `getTags` are explicit arguments, with `getTags`'s null as `None`.
- Object identity and aliasing are not modelled. PHP hands out the same `Tag` objects the parser stores, so a mutation through `getTags`'s result shows in later calls. The model's tags are values, and mutators return new tags.
- `getCitations` and the accessors of `Tag` are the stored fields themselves. Calling them twice gives the same result because they are functions.
- Three test inputs are not worked out as concrete instances: the two with several tags (three paired tags, and a filtered text with two `gallery` tags) and `Example<ref>Ref content</ref>`, whose tag does not start the text. Their properties are the general lemmas on ordering (`Scanner.ScanFrom`, `Scanner.FindSubTagsOrdered`) and filtering (`Tags.KeptIsExact`, `Tags.StoredTagsFromText`). The tests' checks on the attribute store (`Attrs()->get`, `has`, `set`) concern the `Attribute` class, which is not part of this model.
- DataModel.ToString: its own contract states only the outer brackets. What it writes is pinned down by `Reconstruction.PairedRoundTrip`, `Reconstruction.PairedToStringRescan` and `Reconstruction.SelfClosingToStringNotReadBack`.
- Reconstruction.PairedRoundTrip: promises the byte-for-byte round trip only under its conditions, because `toString` does not keep the rest. Two kinds of untouched paired tag are written back differently. A closing tag in another case (`<a>x</A>`) comes back with the name's own case (`</a>`). Fragment whitespace other than one leading space comes back as one leading space: trailing spaces (`<a b >x</a>` gives `<a b>x</a>`), a tab, or several spaces. `Reconstruction.PairedToStringRescan` states what survives in general: the name, the content and the trimmed attributes.
- Citations.UpperCaseRefExcluded: stated for a record named exactly `REF` after trimming, not for every casing. `Citations.CitationsAreRefs` states the general rule: every citation's trimmed name is exactly `ref`.

## Findings

| source | as written | input that shows it | evidently intended | confidence | as-written member | corrected member |
|---|---|---|---|---|---|---|
| src/DataModel/Tag.php:126-127 | the self-closing form is `<` + name + trimmed attributes + `/>`, with no space between name and attributes | `<ref name="x" />` is extracted as name `ref` and fragment ` name="x" `; with the store rendering that as `name="x"`, `toString` gives `<refname="x"/>`, which neither pattern recognises | `<` + trimmed name + (a space when the attributes are non-empty) + attributes + `/>`, as the paired form on lines 129-130 writes it, so that extracting the result gives the tag back | not executed; high for any attribute text starting with a letter or digit | Reconstruction.SelfClosingToStringNotReadBack | Reconstruction.SelfClosingIntendedRescan |

=== FILE: citations.dfy ===
/**
  `ParserCitations`: the `<ref>` tags of a text, extracted by `ParserTags` with
  the requested name `ref` and handed out whole.
 */
module Citations {
  import opened Optional
  import opened Text
  import opened Lexing
  import opened Seqs
  import opened Scanner
  import opened DataModel
  import opened Tags

  /** The parser's state once constructed: the text and the citations found in it. */
  datatype ParserCitations<S> = ParserCitations(text: string, citations: seq<Tag<S>>)

  /** The tag name citations are extracted under. */
  const RefName: string := "ref"

  /** The constructor: remember the text, then `parse`. */
  method New<S>(parse: string -> S, text: string) returns (c: ParserCitations<S>)
    ensures c.text == text
    ensures c.citations == Stored(parse, text, RefName)
  {
    var citations := Parse(parse, text);
    c := ParserCitations(text, citations);
  }

  /** `parse`: a `ParserTags` for `ref` over the text, and all of its tags. */
  method Parse<S>(parse: string -> S, text: string) returns (citations: seq<Tag<S>>)
    ensures citations == Stored(parse, text, RefName)
  {
    var tagParser := Tags.New(parse, text, RefName);
    citations := GetTags(tagParser, None);
  }

  function GetCitations<S>(c: ParserCitations<S>): seq<Tag<S>> {
    c.citations
  }

  /**
    Every citation is a `ref` tag of the text: its trimmed name is `ref`, its
    original text is a piece of the input, and it was built from an extracted record.
   */
  lemma CitationsAreRefs<S>(parse: string -> S, text: string, k: nat)
    requires k < |Stored(parse, text, RefName)|
    ensures var t := Stored(parse, text, RefName)[k];
            && Trim(GetName(t)) == "ref"
            && (exists a: nat, b: nat :: a <= b <= |text| && GetOriginalText(t) == text[a..b])
            && exists r :: r in FindSubTags(text) && t == TagOf(parse, r)
  {
    var t := Stored(parse, text, RefName)[k];
    assert Trim(GetName(t)) == "ref" by {
      assert Trim(t.name) == Trim(RefName) by {
        StoredTagsFromText(parse, text, RefName, k);
      }
      TrimOfUntrimmed(RefName);
    }
    StoredTagsFromText(parse, text, RefName, k);
  }

  /** Every extracted record whose trimmed name is `ref` becomes a citation. */
  lemma CitationsComplete<S>(parse: string -> S, text: string, r: RawTag)
    requires r in FindSubTags(text) && Trim(r.name) == "ref"
    ensures TagOf(parse, r) in Stored(parse, text, RefName)
  {
    KeptComplete(text, RefName, r);
    var kept := Kept(text, RefName);
    var j :| 0 <= j < |kept| && kept[j] == r;
    assert Stored(parse, text, RefName)[j] == TagOf(parse, r);
  }

  /** A record's self-closing flag, as a filter argument. */
  function IsSelfClosing(r: RawTag): bool {
    r.selfClosing
  }

  /** Paired citations all come before self-closing ones, as `find_sub_tags` lists them. */
  lemma PairedCitationsFirst<S>(parse: string -> S, text: string, a: nat, b: nat)
    requires a < |Stored(parse, text, RefName)| && b < |Stored(parse, text, RefName)|
    requires Stored(parse, text, RefName)[a].selfClosing && !Stored(parse, text, RefName)[b].selfClosing
    ensures b < a
  {
    var all := FindSubTags(text);
    assert FalseBeforeTrue(all, IsSelfClosing) by {
      forall i, j | 0 <= i < |all| && 0 <= j < |all| && IsSelfClosing(all[i]) && !IsSelfClosing(all[j])
        ensures j < i
      {
        FindSubTagsOrdered(text, i, j);
      }
    }
    FilterFalseBeforeTrue(all, WantedBy(RefName), IsSelfClosing);
    var kept := Kept(text, RefName);
    assert IsSelfClosing(kept[a]) && !IsSelfClosing(kept[b]);
  }

  /** The citations are an order-preserving selection of all the tags of the text. */
  lemma CitationsAmongAllTags<S>(parse: string -> S, text: string)
    ensures IsSubsequence(Stored(parse, text, RefName), Stored(parse, text, ""))
  {
    StoredIsSubsequenceOfUnfiltered(parse, text, RefName);
  }

  /** The name comparison is case-sensitive: a record whose trimmed name is `REF` is no citation. */
  lemma UpperCaseRefExcluded(text: string, r: RawTag)
    requires Trim(r.name) == "REF"
    ensures r !in Kept(text, RefName)
  {
  }

  /**
    What `getCitations` hands out once the constructor has run: only `ref`
    tags, every `ref` tag of the text, in the order they appear among all its tags.
   */
  lemma GetCitationsAfterNew<S>(parse: string -> S, text: string, c: ParserCitations<S>)
    requires c.text == text && c.citations == Stored(parse, text, RefName)
    ensures forall k :: 0 <= k < |GetCitations(c)| ==> Trim(GetName(GetCitations(c)[k])) == "ref"
    ensures forall r :: r in FindSubTags(text) && Trim(r.name) == "ref" ==> TagOf(parse, r) in GetCitations(c)
    ensures IsSubsequence(GetCitations(c), Stored(parse, text, ""))
  {
    forall k | 0 <= k < |GetCitations(c)|
      ensures Trim(GetName(GetCitations(c)[k])) == "ref"
    {
      CitationsAreRefs(parse, text, k);
    }
    forall r | r in FindSubTags(text) && Trim(r.name) == "ref"
      ensures TagOf(parse, r) in GetCitations(c)
    {
      CitationsComplete(parse, text, r);
    }
    CitationsAmongAllTags(parse, text);
  }
}

=== FILE: examples.dfy ===
/**
  Single-tag texts, the shape of the repository's own test inputs: a text that
  is one paired or one self-closing tag gives exactly that tag, a text without
  `<` gives none, and a paired tag given back by `toString` is the text it came
  from.
 */
module Examples {
  import opened Optional
  import opened Text
  import opened Lexing
  import opened PairedMatcher
  import opened SelfClosingMatcher
  import opened Scanner
  import opened DataModel
  import opened Tags
  import opened Reconstruction

  /** A content with no `<` holds no closing tag. */
  lemma NoClosingWithoutLt(content: string, name: string)
    requires forall k :: 0 <= k < |content| ==> content[k] != '<'
    ensures forall i :: 0 <= i < |content| ==> !ClosingAt(content, i, name)
  {
  }

  /**
    The self-closing pattern finds nothing in a text laid out as
    `<name sa>content</name>` when neither `sa` nor the content hold a `<` and
    `sa` does not end in `/`.
   */
  lemma LayoutNotSelfClosing(out: string, name: string, sa: string, content: string)
    requires IsName(name) && '>' !in sa && '<' !in sa && (sa == [] || (sa[0] == ' ' && sa[|sa| - 1] != '/'))
    requires forall k :: 0 <= k < |content| ==> content[k] != '<'
    requires PairedLayout(out, name, sa, content)
    ensures Pass(SelfClosing, out) == []
  {
    var e := 1 + |name| + |sa| + 1 + |content|;
    LayoutStartNotSelfClosing(out, name, sa, content);
    assert SelfClosingAt(out, e).None? by {
      assert AlnumRunEnd(out, e + 1) == e + 1;
    }
    LayoutLtPositions(out, name, sa, content);
    forall p: nat | p < |out|
      ensures MatchAt(SelfClosing, out, p).None?
    {
      if p != 0 && p != e {
        assert out[p] != '<';
      }
    }
    PassWithoutMatch(SelfClosing, out);
  }

  /** The self-closing pattern does not match at the start of such a layout. */
  lemma LayoutStartNotSelfClosing(out: string, name: string, sa: string, content: string)
    requires IsName(name) && '>' !in sa && (sa == [] || (sa[0] == ' ' && sa[|sa| - 1] != '/'))
    requires PairedLayout(out, name, sa, content)
    ensures SelfClosingAt(out, 0).None?
  {
    var q := 1 + |name|;
    var g := q + |sa|;
    assert AlnumRunEnd(out, 1) == q by {
      assert forall k :: 1 <= k < q ==> out[k] == out[1..q][k - 1];
      assert out[q] == if sa == [] then '>' else ' ' by {
        if sa != [] {
          assert out[q] == out[q..g][0];
        }
      }
      AlnumRunEndAt(out, 1, q);
    }
    assert FindGt(out, q) == Some(g) by {
      assert NoGtIn(out, q, g) by {
        forall k | q <= k < g
          ensures out[k] != '>'
        {
          assert out[k] == out[q..g][k - q];
        }
      }
      FindGtAt(out, q, g);
    }
    assert g == q || out[g - 1] != '/' by {
      if g != q {
        assert out[g - 1] == out[q..g][|sa| - 1];
      }
    }
  }

  /** In such a layout the only `<` are the two that open the tags. */
  lemma LayoutLtPositions(out: string, name: string, sa: string, content: string)
    requires IsName(name) && '<' !in sa
    requires forall k :: 0 <= k < |content| ==> content[k] != '<'
    requires PairedLayout(out, name, sa, content)
    ensures var e := 1 + |name| + |sa| + 1 + |content|;
            forall p :: 0 <= p < |out| && p != 0 && p != e ==> out[p] != '<'
  {
    var q := 1 + |name|;
    var g := q + |sa|;
    var e := g + 1 + |content|;
    forall p | 0 <= p < |out| && p != 0 && p != e
      ensures out[p] != '<'
    {
      if p < q {
        assert out[p] == out[1..q][p - 1];
      } else if p < g {
        assert out[p] == out[q..g][p - q];
      } else if g < p < e {
        assert out[p] == out[g + 1..e][p - g - 1];
      } else if e + 1 < p < e + 2 + |name| {
        assert out[p] == out[e + 2..e + 2 + |name|][p - e - 2];
      }
    }
  }

  /**
    The self-closing pattern finds nothing in the paired form when neither the
    attributes nor the content hold a `<` and the attributes do not end in `/`.
   */
  lemma PairedTextNotSelfClosing(name: string, a: string, content: string)
    requires IsName(name) && '>' !in a && '<' !in a && (a == "" || a[|a| - 1] != '/')
    requires forall k :: 0 <= k < |content| ==> content[k] != '<'
    ensures Pass(SelfClosing, PairedText(name, a, content)) == []
  {
    PairedTextLayout(name, a, content);
    var sa := if a != "" then " " + a else "";
    assert '<' !in sa && '>' !in sa && (sa == [] || (sa[0] == ' ' && sa[|sa| - 1] != '/'));
    LayoutNotSelfClosing(PairedText(name, a, content), name, sa, content);
  }

  /**
    A text the paired pattern matches whole at its start, and in which the
    self-closing pattern finds nothing, gives exactly that one tag.
   */
  lemma OnlyPairedRecord<S>(parse: string -> S, text: string, h: Hit)
    requires PairedAt(text, 0) == Some(h) && h.end == |text|
    requires Pass(SelfClosing, text) == []
    ensures Stored(parse, text, "") == [TagOf(parse, h.tag)]
  {
    PassWhole(Paired, text, h);
    assert FindSubTags(text) == [h.tag];
    KeptUnfiltered(text);
  }

  /**
    A text that is one paired tag `<name a>content</name>` (no `<` in the
    attributes or the content, attributes not ending in `/`) gives, with no name
    requested, exactly one tag: that name, that content, the attributes after
    one space, and the whole text as its original text.
   */
  lemma OnePairedTag<S>(parse: string -> S, name: string, a: string, content: string)
    requires IsName(name) && '>' !in a && '<' !in a && (a == "" || a[|a| - 1] != '/')
    requires forall k :: 0 <= k < |content| ==> content[k] != '<'
    ensures var text := PairedText(name, a, content);
            var sa := if a != "" then " " + a else "";
            Stored(parse, text, "") == [TagOf(parse, RawTag(text, name, sa, content, false))]
  {
    var text := PairedText(name, a, content);
    NoClosingWithoutLt(content, name);
    PairedTextRescan(name, a, content);
    PairedTextNotSelfClosing(name, a, content);
    OnlyPairedRecord(parse, text, PairedAt(text, 0).value);
  }

  /** A text without `<` gives no tag, whatever name is requested. */
  lemma NoTags<S>(text: string, parse: string -> S, tagname: string)
    requires forall k :: 0 <= k < |text| ==> text[k] != '<'
    ensures Stored(parse, text, tagname) == []
  {
    PassWithoutLt(Paired, text);
    PassWithoutLt(SelfClosing, text);
  }

  /**
    A text that is one paired tag with trimmed attributes is given back by
    `toString` of its one tag, when the store renders the fragment as those
    attributes up to surrounding whitespace.
   */
  lemma OnePairedTagToString<S>(parse: string -> S, render: S -> string, name: string, a: string, content: string)
    requires IsName(name) && '>' !in a && '<' !in a && (a == "" || a[|a| - 1] != '/')
    requires a == [] || (!IsTrimmable(a[0]) && !IsTrimmable(a[|a| - 1]))
    requires forall k :: 0 <= k < |content| ==> content[k] != '<'
    requires Trim(render(parse(if a != "" then " " + a else ""))) == a
    ensures var text := PairedText(name, a, content);
            |Stored(parse, text, "")| == 1 && ToString(Stored(parse, text, "")[0], render) == text
  {
    var text := PairedText(name, a, content);
    var sa := if a != "" then " " + a else "";
    OnePairedTag(parse, name, a, content);
    PairedTextAsRecord(name, a, content);
    PairedRoundTrip(RawTag(text, name, sa, content, false), a, parse, render);
  }

  /** The paired form spelled as the paired pattern reads it: the attributes follow one space. */
  lemma PairedTextAsRecord(name: string, a: string, content: string)
    requires IsName(name)
    ensures var sa := if a != "" then " " + a else "";
            PairedText(name, a, content) == "<" + name + sa + ">" + content + "</" + name + ">"
  {
    TrimOfUntrimmed(name);
    var sp := if a != "" then " " else "";
    assert "<" + name + sp + a == "<" + name + (sp + a);
  }

  /** `<gallery>Images go here</gallery>` is the paired form of `gallery`, no attributes, `Images go here`. */
  lemma GalleryText(name: string, content: string, text: string)
    requires name == "gallery" && content == "Images go here"
    requires text == "<gallery>Images go here</gallery>"
    ensures PairedText(name, "", content) == text
  {
    assert text == "<" + name + "" + ">" + content + "</" + name + ">";
    assert IsName(name);
    PairedTextAsRecord(name, "", content);
  }

  /** `<gallery>Images go here</gallery>` gives one tag named `gallery` with the content `Images go here`. */
  lemma GalleryExample<S>(parse: string -> S, name: string, content: string, text: string)
    requires name == "gallery" && content == "Images go here"
    requires text == "<gallery>Images go here</gallery>"
    ensures |Stored(parse, text, "")| == 1
    ensures Trim(GetName(Stored(parse, text, "")[0])) == "gallery"
    ensures GetContent(Stored(parse, text, "")[0]) == "Images go here"
  {
    GalleryText(name, content, text);
    assert IsName(name);
    assert forall k :: 0 <= k < |content| ==> content[k] != '<';
    OnePairedTag(parse, name, "", content);
    TrimOfUntrimmed(name);
  }

  /** `<ref name="r1">Some ref</ref>` is the paired form of `ref`, `name="r1"`, `Some ref`. */
  lemma RefText(name: string, a: string, content: string, text: string)
    requires name == "ref" && a == "name=\"r1\"" && content == "Some ref"
    requires text == "<ref name=\"r1\">Some ref</ref>"
    ensures PairedText(name, a, content) == text
  {
    assert text == "<" + name + " " + a + ">" + content + "</" + name + ">";
    assert IsName(name);
    PairedTextAsRecord(name, a, content);
  }

  /**
    `<ref name="r1">Some ref</ref>` gives one tag that `toString` writes back
    as that text, when the store renders the fragment ` name="r1"` as
    `name="r1"` up to surrounding whitespace.
   */
  lemma RefToStringExample<S>(parse: string -> S, render: S -> string, name: string, a: string, content: string, text: string)
    requires name == "ref" && a == "name=\"r1\"" && content == "Some ref"
    requires text == "<ref name=\"r1\">Some ref</ref>"
    requires Trim(render(parse(" " + a))) == a
    ensures |Stored(parse, text, "")| == 1 && ToString(Stored(parse, text, "")[0], render) == text
  {
    RefText(name, a, content, text);
    assert IsName(name) && '>' !in a && '<' !in a && a[|a| - 1] != '/';
    assert !IsTrimmable(a[0]) && !IsTrimmable(a[|a| - 1]);
    assert forall k :: 0 <= k < |content| ==> content[k] != '<';
    OnePairedTagToString(parse, render, name, a, content);
  }

  /** The unquoted attributes `type=bar height=100` hold no bracket and do not end in `/`. */
  lemma TimelineAttributes(a: string)
    requires a == "type=bar height=100"
    ensures '>' !in a && '<' !in a && a[|a| - 1] != '/'
  {
    assert forall k :: 0 <= k < |a| ==> a[k] != '>' && a[k] != '<';
  }

  /**
    `<timeline type=bar height=100>Graph</timeline>`, given as its pieces, gives
    one tag named `timeline`, with the content `Graph` and the unquoted
    attributes after one space.
   */
  lemma TimelineExample<S>(parse: string -> S, name: string, a: string, content: string, text: string)
    requires name == "timeline" && a == "type=bar height=100" && content == "Graph"
    requires text == "<" + name + " " + a + ">" + content + "</" + name + ">"
    ensures |Stored(parse, text, "")| == 1
    ensures Trim(GetName(Stored(parse, text, "")[0])) == "timeline"
    ensures GetContent(Stored(parse, text, "")[0]) == "Graph"
    ensures GetAttributes(Stored(parse, text, "")[0]) == " " + a
  {
    TimelineAttributes(a);
    assert IsName(name);
    PairedTextAsRecord(name, a, content);
    assert forall k :: 0 <= k < |content| ==> content[k] != '<';
    OnePairedTag(parse, name, a, content);
    TrimOfUntrimmed(name);
  }

  /** `<math>E=mc^2</math>` is the paired form of `math`, no attributes and `E=mc^2`. */
  lemma MathText(name: string, content: string, text: string)
    requires name == "math" && content == "E=mc^2"
    requires text == "<math>E=mc^2</math>"
    ensures PairedText(name, "", content) == text
  {
    assert text == "<" + name + "" + ">" + content + "</" + name + ">";
    assert IsName(name);
    PairedTextAsRecord(name, "", content);
  }

  /** The one tag of `<math>E=mc^2</math>` has the whole text as its original text. */
  lemma MathExample<S>(parse: string -> S, name: string, content: string, text: string)
    requires name == "math" && content == "E=mc^2"
    requires text == "<math>E=mc^2</math>"
    ensures |Stored(parse, text, "")| == 1 && GetOriginalText(Stored(parse, text, "")[0]) == text
  {
    MathText(name, content, text);
    assert IsName(name);
    assert forall k :: 0 <= k < |content| ==> content[k] != '<';
    OnePairedTag(parse, name, "", content);
  }

  /** In a text laid out as `<n a/>` with no `<` in `a`, the only `<` opens the tag. */
  lemma SelfLayoutLtPositions(out: string, n: string, a: string)
    requires IsName(n) && '<' !in a
    requires SelfLayout(out, n, a)
    ensures forall p :: 0 < p < |out| ==> out[p] != '<'
  {
    var q := 1 + |n|;
    var k := if a == "" then q else q + 1;
    forall p | 0 < p < |out|
      ensures out[p] != '<'
    {
      if p < q {
        assert out[p] == out[1..q][p - 1];
      } else if k <= p < k + |a| {
        assert out[p] == out[k..k + |a|][p - k];
      }
    }
  }

  /** The paired pattern finds nothing in a text laid out as `<n a/>`. */
  lemma SelfLayoutNotPaired(out: string, n: string, a: string)
    requires IsName(n) && '>' !in a && '<' !in a && (a == [] || !IsTrimmable(a[0]))
    requires SelfLayout(out, n, a)
    ensures Pass(Paired, out) == []
  {
    var q := 1 + |n|;
    assert PairedAt(out, 0).None? by {
      SelfLayoutSearches(out, n, a);
      if a == "" {
        assert out[q] == '/';
      }
    }
    SelfLayoutLtPositions(out, n, a);
    forall p: nat | p < |out|
      ensures MatchAt(Paired, out, p).None?
    {
      if p != 0 {
        assert out[p] != '<';
      }
    }
    PassWithoutMatch(Paired, out);
  }

  /**
    The self-closing pattern matches a text laid out as `<n a/>` (no `>` in
    `a`, which starts with neither whitespace nor NUL) as a whole, with the name
    `n`, empty content and the attributes after one space.
   */
  lemma SelfLayoutHit(out: string, n: string, a: string)
    requires IsName(n) && '>' !in a && (a == [] || (!IsTrimmable(a[0]) && !IsSpace(a[0])))
    requires SelfLayout(out, n, a)
    ensures var sa := if a != "" then " " + a else "";
            SelfClosingAt(out, 0) == Some(Hit(0, |out|, RawTag(out, n, sa, "", true)))
  {
    var q := 1 + |n|;
    var g := |out| - 1;
    var k := if a == "" then q else q + 1;
    var sa := if a != "" then " " + a else "";
    assert SelfClosingAt(out, 0) == Some(SelfHit(out, 0, q, g - 1)) by {
      SelfLayoutSearches(out, n, a);
      assert a != "" ==> out[k] == out[k..k + |a|][0];
      SelfClosingAtFromSearches(out, 0, q, g, k);
    }
    assert out[0..g + 1] == out;
    if a != "" {
      assert out[q..g - 1] == " " + a;
    } else {
      assert out[q..g - 1] == [];
    }
  }

  /**
    A text that is one self-closing tag `<n a/>` (no `<` or `>` in `a`, which
    starts with neither whitespace nor NUL) gives, with no name requested,
    exactly one tag: the name `n`, empty content, the attributes after one
    space, and the whole text as its original text.
   */
  lemma OneSelfClosingTag<S>(parse: string -> S, out: string, n: string, a: string)
    requires IsName(n) && '>' !in a && '<' !in a && (a == [] || (!IsTrimmable(a[0]) && !IsSpace(a[0])))
    requires SelfLayout(out, n, a)
    ensures var sa := if a != "" then " " + a else "";
            Stored(parse, out, "") == [TagOf(parse, RawTag(out, n, sa, "", true))]
  {
    var sa := if a != "" then " " + a else "";
    var h := Hit(0, |out|, RawTag(out, n, sa, "", true));
    SelfLayoutHit(out, n, a);
    PassWhole(SelfClosing, out, h);
    SelfLayoutNotPaired(out, n, a);
    assert FindSubTags(out) == [h.tag];
    KeptUnfiltered(out);
  }

  /** `<` + name + space + attributes + `/>` has the self-closing layout. */
  lemma SpacedSelfLayout(out: string, n: string, a: string)
    requires a != "" && out == "<" + n + " " + a + "/>"
    ensures SelfLayout(out, n, a)
  {
    var q := 1 + |n|;
    assert out[1..q] == n;
    assert out[q + 1..q + 1 + |a|] == a;
  }


  /** The test text is the self-closing layout of its name and attributes, which meet the conditions of `OneSelfClosingTag`. */
  lemma SourceLayout(n: string, a: string, text: string)
    requires n == "source" && a == "lang=\"bash\" mode=\"console\" "
    requires text == "<" + n + " " + a + "/>"
    ensures SelfLayout(text, n, a) && IsName(n) && Trim(n) == n
    ensures '>' !in a && '<' !in a && !IsTrimmable(a[0]) && !IsSpace(a[0])
  {
    SpacedSelfLayout(text, n, a);
    TrimOfUntrimmed(n);
  }

  /**
    `<source lang="bash" mode="console" />` gives one self-closing tag named
    `source` with empty content and the fragment ` lang="bash" mode="console" `.
   */
  lemma SourceExample<S>(parse: string -> S, n: string, a: string, text: string)
    requires n == "source" && a == "lang=\"bash\" mode=\"console\" "
    requires text == "<" + n + " " + a + "/>"
    ensures Stored(parse, text, "") == [TagOf(parse, RawTag(text, n, " " + a, "", true))]
    ensures Trim(GetName(Stored(parse, text, "")[0])) == n && GetContent(Stored(parse, text, "")[0]) == ""
  {
    SourceLayout(n, a, text);
    OneSelfClosingTag(parse, text, n, a);
  }


  /** The test text is the self-closing layout of its name and attributes, which meet the conditions of `OneSelfClosingTag`. */
  lemma RefGroupLayout(n: string, a: string, text: string)
    requires n == "ref" && a == "name=\"x\" group=\"g\" "
    requires text == "<" + n + " " + a + "/>"
    ensures SelfLayout(text, n, a) && IsName(n) && Trim(n) == n
    ensures '>' !in a && '<' !in a && !IsTrimmable(a[0]) && !IsSpace(a[0])
  {
    SpacedSelfLayout(text, n, a);
    TrimOfUntrimmed(n);
  }

  /**
    `<ref name="x" group="g" />` gives one self-closing tag named `ref` with
    empty content and the fragment ` name="x" group="g" `.
   */
  lemma RefGroupExample<S>(parse: string -> S, n: string, a: string, text: string)
    requires n == "ref" && a == "name=\"x\" group=\"g\" "
    requires text == "<" + n + " " + a + "/>"
    ensures Stored(parse, text, "") == [TagOf(parse, RawTag(text, n, " " + a, "", true))]
    ensures Trim(GetName(Stored(parse, text, "")[0])) == n && GetContent(Stored(parse, text, "")[0]) == ""
  {
    RefGroupLayout(n, a, text);
    OneSelfClosingTag(parse, text, n, a);
  }

  /** `Plain text without any tags.` gives no tag. */
  lemma NoTagsExample<S>(parse: string -> S, text: string)
    requires text == "Plain text without any tags."
    ensures Stored(parse, text, "") == []
  {
    assert forall k :: 0 <= k < |text| ==> text[k] != '<';
    NoTags(text, parse, "");
  }
}

=== FILE: lexing.dfy ===
/**
  The match record both patterns produce and the low-level searches they share:
  the maximal alphanumeric run of a tag name, a run of spaces, and the first `>`.
 */
module Lexing {
  import opened Optional
  import opened Text

  /**
    One match as `find_sub_tags` records it: the matched text, the captured name,
    the attribute fragment, the content, and which of the two patterns matched.
   */
  datatype RawTag = RawTag(original: string, name: string, attributes: string, content: string, selfClosing: bool)

  /** A match together with the span `[start, end)` of the input it covers. */
  datatype Hit = Hit(start: nat, end: nat, tag: RawTag)

  /** End of the maximal run of alphanumerics starting at `i`. */
  function AlnumRunEnd(s: string, i: nat): (j: nat)
    requires i <= |s|
    ensures i <= j <= |s|
    ensures forall k :: i <= k < j ==> IsAlnum(s[k])
    ensures j == |s| || !IsAlnum(s[j])
    decreases |s| - i
  {
    if i == |s| || !IsAlnum(s[i]) then i else AlnumRunEnd(s, i + 1)
  }

  /** End of the maximal run of space characters (`' '` only) starting at `i`. */
  function SpaceRunEnd(s: string, i: nat): (j: nat)
    requires i <= |s|
    ensures i <= j <= |s|
    ensures forall k :: i <= k < j ==> s[k] == ' '
    ensures j == |s| || s[j] != ' '
    decreases |s| - i
  {
    if i == |s| || s[i] != ' ' then i else SpaceRunEnd(s, i + 1)
  }

  /** No `>` in `s[lo..hi]`. */
  predicate NoGtIn(s: string, lo: nat, hi: nat)
    requires lo <= hi <= |s|
  {
    forall k :: lo <= k < hi ==> s[k] != '>'
  }

  /** Position of the first `>` at or after `i`, if there is one. */
  function FindGt(s: string, i: nat): (r: Option<nat>)
    requires i <= |s|
    ensures r.Some? ==> i <= r.value < |s| && s[r.value] == '>' && NoGtIn(s, i, r.value)
    ensures r.None? ==> NoGtIn(s, i, |s|)
    decreases |s| - i
  {
    if i == |s| then None else if s[i] == '>' then Some(i) else FindGt(s, i + 1)
  }

  /** A run of alphanumerics followed by a non-alphanumeric is the maximal one. */
  lemma AlnumRunEndAt(s: string, i: nat, j: nat)
    requires i <= j < |s|
    requires forall k :: i <= k < j ==> IsAlnum(s[k])
    requires !IsAlnum(s[j])
    ensures AlnumRunEnd(s, i) == j
  {
  }

  /** A `>` with none before it (from `i` on) is the one `FindGt` reports. */
  lemma FindGtAt(s: string, i: nat, g: nat)
    requires i <= g < |s| && s[g] == '>'
    requires NoGtIn(s, i, g)
    ensures FindGt(s, i) == Some(g)
  {
  }

  /** A concatenation of eight pieces, regrouped from the right. */
  lemma Regroup8<T>(a: seq<T>, b: seq<T>, c: seq<T>, d: seq<T>, e: seq<T>, f: seq<T>, g: seq<T>, h: seq<T>)
    ensures a + b + c + d + e + f + g + h == a + (b + (c + (d + (e + (f + (g + h))))))
  {
    assert f + g + h == f + (g + h);
    assert e + f + g + h == e + (f + (g + h));
    assert d + e + f + g + h == d + (e + (f + (g + h)));
    assert c + d + e + f + g + h == c + (d + (e + (f + (g + h))));
    assert b + c + d + e + f + g + h == b + (c + (d + (e + (f + (g + h)))));
  }

  /** A slice is the concatenation of its two halves at any cut. */
  lemma SliceSplit<T>(s: seq<T>, a: nat, b: nat, c: nat)
    requires a <= b <= c <= |s|
    ensures s[a..c] == s[a..b] + s[b..c]
  {
  }
}

=== FILE: optional.dfy ===
/** The usual Some/None datatype, used wherever a search may come back empty. */
module Optional {

  datatype Option<+T> = None | Some(value: T)
}

=== FILE: paired.dfy ===
/**
  The paired-tag pattern `<(?<tag>[a-zA-Z0-9]+)(\s[^>]*)?>(.*?)<\/\k<tag>>` with
  flags `i` and `s`, as a deterministic scanner at one start position.

  The name is the maximal alphanumeric run (a shorter one would be followed by
  an alphanumeric, which neither `\s` nor `>` accepts). The attribute group, when
  present, runs from the whitespace after the name to the first `>`. The content
  is the shortest span followed by `</N'>` where `N'` equals the name up to ASCII
  case; `s` lets it cross line breaks.
 */
module PairedMatcher {
  import opened Optional
  import opened Text
  import opened Lexing

  /** A closing tag `</N'>` at `e`, with `N'` equal to `n` up to ASCII case. */
  predicate ClosingAt(s: string, e: nat, n: string) {
    && e + |n| + 3 <= |s|
    && s[e] == '<' && s[e + 1] == '/'
    && EqualsIgnoreCase(s[e + 2..e + 2 + |n|], n)
    && s[e + 2 + |n|] == '>'
  }

  /** The first closing tag for `n` at or after `i`: the lazy `(.*?)` stops there. */
  function FindClosing(s: string, n: string, i: nat): (r: Option<nat>)
    requires i <= |s|
    ensures r.Some? ==> i <= r.value && ClosingAt(s, r.value, n)
                        && forall e :: i <= e < r.value ==> !ClosingAt(s, e, n)
    ensures r.None? ==> forall e :: i <= e ==> !ClosingAt(s, e, n)
    decreases |s| - i
  {
    if i == |s| then None
    else if ClosingAt(s, i, n) then Some(i)
    else FindClosing(s, n, i + 1)
  }

  /** A closing tag with none between it and `g` is the one `FindClosing` reports after `g`. */
  lemma FindClosingAt(s: string, n: string, g: nat, e: nat)
    requires g < e <= |s| && ClosingAt(s, e, n)
    requires forall e' :: g < e' < e ==> !ClosingAt(s, e', n)
    ensures FindClosing(s, n, g + 1) == Some(e)
  {
  }

  /** The match the scanner builds from the positions of `<`, the end of the name, the `>` and the closing tag. */
  function PairedHit(s: string, p: nat, q: nat, g: nat, e: nat): (h: Hit)
    requires p < q <= g < e && e + (q - p - 1) + 3 <= |s|
    ensures h.start == p < h.end <= |s| && !h.tag.selfClosing
  {
    var end := e + (q - p - 1) + 3;
    Hit(p, end, RawTag(s[p..end], s[p + 1..q], s[q..g], s[g + 1..e], false))
  }

  /** The paired match starting at `p`, if the pattern matches there. */
  function PairedAt(s: string, p: nat): (r: Option<Hit>)
    ensures r.Some? ==> r.value.start == p < r.value.end <= |s| && s[p] == '<' && !r.value.tag.selfClosing
  {
    if p >= |s| || s[p] != '<' then None
    else
      var q := AlnumRunEnd(s, p + 1);
      if q == p + 1 || q == |s| || !(s[q] == '>' || IsSpace(s[q])) then None
      else
        match FindGt(s, q)
        case None => None
        case Some(g) =>
          match FindClosing(s, s[p + 1..q], g + 1)
          case None => None
          case Some(e) => Some(PairedHit(s, p, q, g, e))
  }

  /**
    The paired pattern matches at `p` with the name ending at `q`, the opening
    tag's `>` at `g` and the closing tag at `e`, read off the pattern itself:
    `<`, one or more alphanumerics, either `>` at once or a whitespace character
    and then anything but `>` up to `>`, and the content running up to the first
    case-insensitive closing tag for the name.
   */
  ghost predicate PairedRegexAt(s: string, p: nat, q: nat, g: nat, e: nat) {
    && p + 1 < q <= g < e < |s|
    && s[p] == '<'
    && (forall k :: p < k < q ==> IsAlnum(s[k]))
    && (q == g || (IsSpace(s[q]) && forall k :: q < k < g ==> s[k] != '>'))
    && s[g] == '>'
    && var name := s[p + 1..q];
       ClosingAt(s, e, name) && forall e' :: g < e' < e ==> !ClosingAt(s, e', name)
  }

  lemma PairedAtSound(s: string, p: nat)
    requires PairedAt(s, p).Some?
    ensures exists q, g, e :: PairedRegexAt(s, p, q, g, e) && PairedAt(s, p).value == PairedHit(s, p, q, g, e)
  {
    var q := AlnumRunEnd(s, p + 1);
    var g := FindGt(s, q).value;
    var e := FindClosing(s, s[p + 1..q], g + 1).value;
    assert PairedRegexAt(s, p, q, g, e);
  }

  /** `PairedAt` assembled from the results of its three searches. */
  lemma PairedAtFromSearches(s: string, p: nat, q: nat, g: nat, e: nat)
    requires p < |s| && s[p] == '<'
    requires p + 1 < q < |s| && AlnumRunEnd(s, p + 1) == q && (s[q] == '>' || IsSpace(s[q]))
    requires FindGt(s, q) == Some(g)
    requires FindClosing(s, s[p + 1..q], g + 1) == Some(e)
    ensures PairedAt(s, p) == Some(PairedHit(s, p, q, g, e))
  {
  }

  lemma PairedAtComplete(s: string, p: nat, q: nat, g: nat, e: nat)
    requires PairedRegexAt(s, p, q, g, e)
    ensures PairedAt(s, p) == Some(PairedHit(s, p, q, g, e))
  {
    AlnumRunEndAt(s, p + 1, q);
    FindGtAt(s, q, g);
    FindClosingAt(s, s[p + 1..q], g, e);
    PairedAtFromSearches(s, p, q, g, e);
  }

  /** The scanner reports exactly the pattern's match: soundness and completeness. */
  lemma PairedAtIsRegexMatch(s: string, p: nat, h: Hit)
    ensures PairedAt(s, p) == Some(h) <==> exists q, g, e :: PairedRegexAt(s, p, q, g, e) && h == PairedHit(s, p, q, g, e)
  {
    if PairedAt(s, p) == Some(h) {
      PairedAtSound(s, p);
    }
    forall q, g, e | PairedRegexAt(s, p, q, g, e) && h == PairedHit(s, p, q, g, e)
      ensures PairedAt(s, p) == Some(h)
    {
      PairedAtComplete(s, p, q, g, e);
    }
  }

  /** The closing name a paired record ends with: the text between `</` and the final `>`. */
  function CloserOf(t: RawTag): string
    requires |t.name| + 1 <= |t.original|
  {
    t.original[|t.original| - 1 - |t.name|..|t.original| - 1]
  }

  /**
    A paired record: an alphanumeric name, an attribute fragment that is empty or
    starts with whitespace and has no `>`, the text `<name attrs>content</N'>` with
    `N'` the name up to case, and no closing tag for the name inside the content.
   */
  ghost predicate PairedShape(t: RawTag) {
    && !t.selfClosing
    && IsName(t.name)
    && (t.attributes == [] || (IsSpace(t.attributes[0]) && '>' !in t.attributes))
    && |t.original| == |t.attributes| + |t.content| + 2 * |t.name| + 5
    && (exists closer :: EqualsIgnoreCase(closer, t.name)
                         && t.original == "<" + t.name + t.attributes + ">" + t.content + "</" + closer + ">")
    && forall i :: 0 <= i < |t.content| ==> !ClosingAt(t.content, i, t.name)
  }

  /** A closing tag inside a slice is a closing tag of the whole text. */
  lemma ClosingAtInSlice(s: string, a: nat, b: nat, i: nat, n: string)
    requires a <= b <= |s| && ClosingAt(s[a..b], i, n)
    ensures ClosingAt(s, a + i, n)
  {
    var c := s[a..b];
    assert c[i] == s[a + i] && c[i + 1] == s[a + i + 1] && c[i + 2 + |n|] == s[a + i + 2 + |n|];
    var x, y := c[i + 2..i + 2 + |n|], s[a + i + 2..a + i + 2 + |n|];
    assert x == y by {
      forall k | 0 <= k < |n|
        ensures x[k] == y[k]
      {
        assert c[i + 2 + k] == s[a + i + 2 + k];
      }
    }
  }

  /** A slice that starts with a known character is that character and the rest. */
  lemma SliceCons(s: string, a: nat, b: nat, c: char)
    requires a < b <= |s| && s[a] == c
    ensures s[a..b] == [c] + s[a + 1..b]
  {
  }

  /**
    The text from `p` to `end` splits at the end `q` of the name, the `>` at `g`,
    the closing tag at `e` and its `>` at `c`.
   */
  lemma PairedSlices(s: string, p: nat, q: nat, g: nat, e: nat, c: nat, end: nat)
    requires p < q <= g < e && e + 2 <= c && end == c + 1 && end <= |s|
    requires s[p] == '<' && s[g] == '>' && s[e] == '<' && s[e + 1] == '/' && s[c] == '>'
    ensures s[p..end] == "<" + s[p + 1..q] + s[q..g] + ">" + s[g + 1..e] + "</" + s[e + 2..c] + ">"
  {
    var name, attrs, content, closer := s[p + 1..q], s[q..g], s[g + 1..e], s[e + 2..c];
    var closing := s[e..end];
    assert closing == "</" + (closer + ">") by {
      SliceSplit(s, e, e + 2, end);
      SliceSplit(s, e + 2, c, end);
      assert s[e..e + 2] == "</" && s[c..end] == ">";
    }
    var afterGt := s[g + 1..end];
    assert afterGt == content + closing by {
      SliceSplit(s, g + 1, e, end);
    }
    var fromGt := s[g..end];
    assert fromGt == ">" + afterGt by {
      SliceCons(s, g, end, '>');
    }
    var fromAttrs := s[q..end];
    assert fromAttrs == attrs + fromGt by {
      SliceSplit(s, q, g, end);
    }
    var afterLt := s[p + 1..end];
    assert afterLt == name + fromAttrs by {
      SliceSplit(s, p + 1, q, end);
    }
    assert s[p..end] == "<" + afterLt by {
      SliceCons(s, p, end, '<');
    }
    Regroup8("<", name, attrs, ">", content, "</", closer, ">");
  }

  /** The record's text splits at the match's positions into `<name attrs>content</N'>`. */
  lemma PairedHitText(s: string, p: nat, q: nat, g: nat, e: nat)
    requires p + 1 < q <= g < e && e + (q - p - 1) + 3 <= |s|
    requires s[p] == '<' && s[g] == '>' && s[e] == '<' && s[e + 1] == '/' && s[e + 2 + (q - p - 1)] == '>'
    ensures var t := PairedHit(s, p, q, g, e).tag;
            && t.original == s[p..PairedHit(s, p, q, g, e).end]
            && |t.original| == |t.attributes| + |t.content| + 2 * |t.name| + 5
            && CloserOf(t) == s[e + 2..e + 2 + |t.name|]
            && t.original == "<" + t.name + t.attributes + ">" + t.content + "</" + CloserOf(t) + ">"
  {
    var t := PairedHit(s, p, q, g, e).tag;
    var n := q - p - 1;
    var end := e + n + 3;
    assert t.original == s[p..end] && t.name == s[p + 1..q] && t.attributes == s[q..g] && t.content == s[g + 1..e];
    assert CloserOf(t) == s[e + 2..e + 2 + n] by {
      assert CloserOf(t) == s[p..end][end - p - 1 - n..end - p - 1];
    }
    PairedSlices(s, p, q, g, e, e + 2 + n, end);
  }

  /** No closing tag starts inside the content when none starts in the text between `g` and `e`. */
  lemma ContentHasNoCloser(s: string, g: nat, e: nat, n: string, content: string)
    requires g < e <= |s| && content == s[g + 1..e]
    requires forall e' :: g < e' < e ==> !ClosingAt(s, e', n)
    ensures forall i :: 0 <= i < |content| ==> !ClosingAt(content, i, n)
  {
    forall i | 0 <= i < |content|
      ensures !ClosingAt(content, i, n)
    {
      if ClosingAt(content, i, n) {
        ClosingAtInSlice(s, g + 1, e, i, n);
      }
    }
  }

  /** The record of a pattern match has the paired shape and is the matched text. */
  lemma PairedHitShape(s: string, p: nat, q: nat, g: nat, e: nat)
    requires PairedRegexAt(s, p, q, g, e)
    ensures PairedShape(PairedHit(s, p, q, g, e).tag)
    ensures PairedHit(s, p, q, g, e).tag.original == s[p..PairedHit(s, p, q, g, e).end]
  {
    var t := PairedHit(s, p, q, g, e).tag;
    var n := s[p + 1..q];
    assert t.name == n && t.content == s[g + 1..e];
    assert IsName(n) by {
      forall k | 0 <= k < |n|
        ensures IsAlnum(n[k])
      {
        assert n[k] == s[p + 1 + k];
      }
    }
    assert t.attributes == [] || (IsSpace(t.attributes[0]) && '>' !in t.attributes) by {
      if t.attributes != [] {
        assert t.attributes[0] == s[q];
        assert forall k :: 0 <= k < |t.attributes| ==> t.attributes[k] == s[q + k];
      }
    }
    assert EqualsIgnoreCase(s[e + 2..e + 2 + |n|], n) by {
      assert ClosingAt(s, e, n);
    }
    assert t.original == s[p..PairedHit(s, p, q, g, e).end]
           && |t.original| == |t.attributes| + |t.content| + 2 * |t.name| + 5
           && CloserOf(t) == s[e + 2..e + 2 + |n|]
           && t.original == "<" + t.name + t.attributes + ">" + t.content + "</" + CloserOf(t) + ">" by {
      PairedHitText(s, p, q, g, e);
    }
    assert forall i :: 0 <= i < |t.content| ==> !ClosingAt(t.content, i, t.name) by {
      ContentHasNoCloser(s, g, e, n, t.content);
    }
  }


}

=== FILE: roundtrip.dfy ===
/**
  What `toString` gives back to the extractor: the paired form is read back as
  the same tag, a tag extracted from the text and left untouched is written as
  the text it came from, and the self-closing form, as written, is not read back
  at all (the corrected form is).
 */
module Reconstruction {
  import opened Optional
  import opened Text
  import opened Lexing
  import opened PairedMatcher
  import opened SelfClosingMatcher
  import opened DataModel
  import opened Tags
  import Scanner

  /** A closing tag lying wholly inside `s[a..b]` is a closing tag of the slice. */
  lemma ClosingAtOfSlice(s: string, a: nat, b: nat, i: nat, n: string)
    requires a + i + |n| + 3 <= b <= |s| && ClosingAt(s, a + i, n)
    ensures ClosingAt(s[a..b], i, n)
  {
    var c := s[a..b];
    assert c[i] == s[a + i] && c[i + 1] == s[a + i + 1] && c[i + 2 + |n|] == s[a + i + 2 + |n|];
    var x, y := c[i + 2..i + 2 + |n|], s[a + i + 2..a + i + 2 + |n|];
    assert x == y by {
      forall k | 0 <= k < |n|
        ensures x[k] == y[k]
      {
        assert c[i + 2 + k] == s[a + i + 2 + k];
      }
    }
  }

  /**
    With no closing tag inside `s[g + 1..e]` and no `>` in the first
    `|n| + 2` characters from `e`, no closing tag starts strictly between `g` and `e`.
   */
  lemma NoClosingBefore(s: string, n: string, g: nat, e: nat, c: string)
    requires g < e && e + |n| + 3 <= |s| && c == s[g + 1..e]
    requires forall i :: 0 <= i < |c| ==> !ClosingAt(c, i, n)
    requires forall k :: e <= k < e + 2 + |n| ==> s[k] != '>'
    ensures forall e' :: g < e' < e ==> !ClosingAt(s, e', n)
  {
    forall e' | g < e' < e
      ensures !ClosingAt(s, e', n)
    {
      if ClosingAt(s, e', n) {
        assert e' + |n| + 3 <= e;
        ClosingAtOfSlice(s, g + 1, e, e' - g - 1, n);
      }
    }
  }

  /** `out` is `<name sa>content</name>`, described piece by piece by position. */
  ghost predicate PairedLayout(out: string, name: string, sa: string, content: string) {
    var g := 1 + |name| + |sa|;
    var e := g + 1 + |content|;
    && |out| == e + |name| + 3
    && out[0] == '<' && out[1..1 + |name|] == name && out[1 + |name|..g] == sa && out[g] == '>'
    && out[g + 1..e] == content && out[e] == '<' && out[e + 1] == '/'
    && out[e + 2..e + 2 + |name|] == name && out[e + 2 + |name|] == '>'
  }

  /** The pieces of the paired form, by position. */
  lemma PairedTextLayout(name: string, a: string, content: string)
    requires IsName(name)
    ensures PairedLayout(PairedText(name, a, content), name, if a != "" then " " + a else "", content)
  {
    TrimOfUntrimmed(name);
    var sp := if a != "" then " " else "";
    var sa := if a != "" then " " + a else "";
    assert "<" + name + sp + a == "<" + name + sa;
    ConcatLayout(PairedText(name, a, content), name, sa, content);
  }

  /** The concatenation `<name sa>content</name>`, piece by piece. */
  lemma ConcatLayout(out: string, name: string, sa: string, content: string)
    requires out == "<" + name + sa + ">" + content + "</" + name + ">"
    ensures PairedLayout(out, name, sa, content)
  {
    var q := 1 + |name|;
    var g := q + |sa|;
    var e := g + 1 + |content|;
    assert out[1..q] == name;
    assert out[q..g] == sa;
    assert out[g + 1..e] == content;
    assert out[e + 2..e + 2 + |name|] == name;
  }

  /**
    A text laid out as `<name sa>content</name>`, with `sa` empty or whitespace
    and then no `>`, is one paired match with exactly those pieces.
   */
  lemma PairedAtOfLayout(out: string, name: string, sa: string, content: string)
    requires IsName(name) && '>' !in sa && (sa == [] || IsSpace(sa[0]))
    requires forall i :: 0 <= i < |content| ==> !ClosingAt(content, i, name)
    requires PairedLayout(out, name, sa, content)
    ensures PairedAt(out, 0).Some?
    ensures var h := PairedAt(out, 0).value;
            && h.end == |out| && h.tag.original == out
            && h.tag.name == name && h.tag.attributes == sa && h.tag.content == content
  {
    var q := 1 + |name|;
    var g := q + |sa|;
    var e := g + 1 + |content|;
    assert AlnumRunEnd(out, 1) == q by {
      assert forall k :: 1 <= k < q ==> out[k] == out[1..q][k - 1];
      assert out[q] == if sa == [] then '>' else sa[0] by {
        if sa != [] {
          assert out[q] == out[q..g][0];
        }
      }
      AlnumRunEndAt(out, 1, q);
    }
    assert out[q] == '>' || IsSpace(out[q]) by {
      if sa != [] {
        assert out[q] == out[q..g][0];
      }
    }
    assert FindGt(out, q) == Some(g) by {
      assert NoGtIn(out, q, g) by {
        forall k | q <= k < g
          ensures out[k] != '>'
        {
          assert out[k] == out[q..g][k - q];
        }
      }
      FindGtAt(out, q, g);
    }
    assert FindClosing(out, out[1..q], g + 1) == Some(e) by {
      assert ClosingAt(out, e, name);
      assert forall k :: e <= k < e + 2 + |name| ==> out[k] != '>' by {
        forall k | e + 2 <= k < e + 2 + |name|
          ensures out[k] != '>'
        {
          assert out[k] == out[e + 2..e + 2 + |name|][k - e - 2];
        }
      }
      NoClosingBefore(out, name, g, e, content);
      FindClosingAt(out, name, g, e);
    }
    PairedAtFromSearches(out, 0, q, g, e);
  }

  /**
    The paired form is read back by the paired pattern as one match covering
    it all, with the same name and content and the attributes after one space,
    provided the attributes hold no `>` and the content no closing tag for the name.
   */
  lemma PairedTextRescan(name: string, a: string, content: string)
    requires IsName(name) && '>' !in a
    requires forall i :: 0 <= i < |content| ==> !ClosingAt(content, i, name)
    ensures var out := PairedText(name, a, content);
            && PairedAt(out, 0).Some?
            && var h := PairedAt(out, 0).value;
               && h.end == |out| && h.tag.original == out
               && h.tag.name == name && h.tag.content == content
               && h.tag.attributes == (if a != "" then " " + a else "")
  {
    PairedTextLayout(name, a, content);
    PairedAtOfLayout(PairedText(name, a, content), name, if a != "" then " " + a else "", content);
  }

  /**
    A paired tag extracted from the text and left untouched is written back as
    exactly the text it was extracted from, when the closing tag spelled the
    name the same way, the fragment is empty or one space before a trimmed
    text `a`, and the attribute store renders as `a` up to surrounding whitespace.
   */
  lemma PairedRoundTrip<S>(r: RawTag, a: string, parse: string -> S, render: S -> string)
    requires !r.selfClosing && IsName(r.name)
    requires r.original == "<" + r.name + r.attributes + ">" + r.content + "</" + r.name + ">"
    requires a == [] || (!IsTrimmable(a[0]) && !IsTrimmable(a[|a| - 1]))
    requires r.attributes == (if a == "" then "" else " " + a)
    requires Trim(render(parse(r.attributes))) == a
    ensures ToString(TagOf(parse, r), render) == r.original
  {
    var t := TagOf(parse, r);
    assert TrimmedAttrs(t, render) == a;
    assert ToString(t, render) == PairedText(r.name, a, r.content);
    assert Trim(r.name) == r.name by {
      TrimOfUntrimmed(r.name);
    }
    var sp := if a != "" then " " else "";
    assert "<" + r.name + sp + a == "<" + r.name + r.attributes;
  }

  /**
    Rewriting an untouched extracted paired tag and extracting again gives back
    its name and content, and attributes with the same trimmed text, provided
    the store's rendering holds no `>`.
   */
  lemma PairedToStringRescan<S>(r: RawTag, parse: string -> S, render: S -> string)
    requires PairedShape(r)
    requires '>' !in Trim(render(parse(r.attributes)))
    ensures var t := TagOf(parse, r);
            var out := ToString(t, render);
            && PairedAt(out, 0).Some?
            && var h := PairedAt(out, 0).value;
               && h.end == |out| && h.tag.name == t.name && h.tag.content == t.content
               && Trim(h.tag.attributes) == Trim(render(t.attrs))
  {
    var a := Trim(render(parse(r.attributes)));
    PairedTextRescan(r.name, a, r.content);
    if a != "" {
      TrimSpacePrefix(a);
    }
  }

  /** Where a run of spaces that starts at `i` and ends before a non-space at `j` ends. */
  lemma SpaceRunEndAt(s: string, i: nat, j: nat)
    requires i <= j < |s|
    requires forall k :: i <= k < j ==> s[k] == ' '
    requires s[j] != ' '
    ensures SpaceRunEnd(s, i) == j
    decreases j - i
  {
    if i < j {
      SpaceRunEndAt(s, i + 1, j);
    }
  }

  /**
    The corrected self-closing form by position: `<`, the name `n`, a space when
    the attributes `a` are non-empty, `a`, then `/>`.
   */
  ghost predicate SelfLayout(out: string, n: string, a: string) {
    var q := 1 + |n|;
    var k := if a == "" then q else q + 1;
    && |out| == k + |a| + 2
    && out[0] == '<' && out[1..q] == n && (a != "" ==> out[q] == ' ')
    && out[k..k + |a|] == a && out[k + |a|] == '/' && out[k + |a| + 1] == '>'
  }

  /** The corrected self-closing form has that layout, with the trimmed name. */
  lemma SelfTextLayout(name: string, n: string, a: string)
    requires n == Trim(name)
    ensures SelfLayout(SelfClosingTextIntended(name, a), n, a)
  {
    var out := SelfClosingTextIntended(name, a);
    var sp := if a != "" then " " else "";
    var q := 1 + |n|;
    var k := q + |sp|;
    assert out == "<" + n + sp + a + "/>";
    assert out[1..q] == n;
    assert out[k..k + |a|] == a;
  }

  /** The three searches of the self-closing scanner over the corrected form. */
  lemma SelfLayoutSearches(out: string, n: string, a: string)
    requires IsName(n) && '>' !in a
    requires a == [] || !IsTrimmable(a[0])
    requires SelfLayout(out, n, a)
    ensures var q := 1 + |n|;
            && AlnumRunEnd(out, 1) == q
            && FindGt(out, q) == Some(|out| - 1)
            && SpaceRunEnd(out, q) == (if a == "" then q else q + 1)
  {
    var q := 1 + |n|;
    var k := if a == "" then q else q + 1;
    var g := |out| - 1;
    assert AlnumRunEnd(out, 1) == q by {
      assert forall i :: 1 <= i < q ==> out[i] == out[1..q][i - 1];
      AlnumRunEndAt(out, 1, q);
    }
    assert FindGt(out, q) == Some(g) by {
      assert forall i :: k <= i < k + |a| ==> out[i] == out[k..k + |a|][i - k];
      assert NoGtIn(out, q, g);
      FindGtAt(out, q, g);
    }
    assert SpaceRunEnd(out, q) == k by {
      if a != "" {
        assert out[k] == out[k..k + |a|][0];
      }
      SpaceRunEndAt(out, q, k);
    }
  }

  /** The name and attributes the scanner cuts from the corrected form trim back to `n` and `a`. */
  lemma SelfLayoutPieces(out: string, n: string, a: string, nameEnd: nat)
    requires IsName(n)
    requires a == [] || (!IsTrimmable(a[0]) && !IsTrimmable(a[|a| - 1]))
    requires SelfLayout(out, n, a)
    requires nameEnd == if a != "" && IsSpace(a[0]) then 2 + |n| else 1 + |n|
    ensures nameEnd <= |out| - 2
    ensures Trim(out[1..nameEnd]) == n && Trim(out[nameEnd..|out| - 2]) == a
  {
    var q := 1 + |n|;
    var g := |out| - 1;
    assert Trim(out[1..nameEnd]) == n by {
      if nameEnd == q {
        TrimOfUntrimmed(n);
      } else {
        assert out[1..q + 1] == n + Spaces(1);
        TrimNameSpaces(n, 1);
      }
    }
    assert Trim(out[nameEnd..g - 1]) == a by {
      TrimOfUntrimmed(a);
      if a == "" {
        assert out[nameEnd..g - 1] == [];
      } else if nameEnd == q + 1 {
        assert out[q + 1..g - 1] == a;
      } else {
        assert out[q..g - 1] == " " + a;
        TrimSpacePrefix(a);
      }
    }
  }

  /**
    The corrected self-closing form `<N a/>` of a name `N` and trimmed attributes
    `a` with no `>` is read back by the self-closing pattern as one match covering
    it all, whose trimmed name is `N` and whose trimmed attributes are `a`.
   */
  lemma SelfLayoutMatch(out: string, n: string, a: string)
    requires IsName(n) && '>' !in a
    requires a == [] || (!IsTrimmable(a[0]) && !IsTrimmable(a[|a| - 1]))
    requires SelfLayout(out, n, a)
    ensures SelfClosingAt(out, 0).Some?
    ensures var h := SelfClosingAt(out, 0).value;
            && h.end == |out| && h.tag.original == out && h.tag.content == ""
            && Trim(h.tag.name) == n && Trim(h.tag.attributes) == a
  {
    var q := 1 + |n|;
    var g := |out| - 1;
    var nameEnd := if a != "" && IsSpace(a[0]) then q + 1 else q;
    assert SelfClosingAt(out, 0) == Some(SelfHit(out, 0, nameEnd, g - 1)) by {
      SelfLayoutSearches(out, n, a);
      var k := if a == "" then q else q + 1;
      assert a != "" ==> out[k] == out[k..k + |a|][0];
      SelfClosingAtFromSearches(out, 0, q, g, k);
    }
    SelfLayoutPieces(out, n, a, nameEnd);
    assert out[0..g + 1] == out;
  }

  /**
    The corrected `toString` of an extracted self-closing tag left untouched is
    read back as a self-closing tag with the same trimmed name and the same
    trimmed attributes, when the store's rendering holds no `>`.
   */
  lemma SelfClosingIntendedRescan<S>(r: RawTag, parse: string -> S, render: S -> string)
    requires SelfClosingShape(r)
    requires '>' !in Trim(render(parse(r.attributes)))
    ensures var t := TagOf(parse, r);
            var out := ToStringIntended(t, render);
            && SelfClosingAt(out, 0).Some?
            && var h := SelfClosingAt(out, 0).value;
               && h.end == |out| && h.tag.selfClosing && h.tag.content == ""
               && Trim(h.tag.name) == Trim(t.name)
               && Trim(h.tag.attributes) == Trim(render(t.attrs))
  {
    var a := Trim(render(parse(r.attributes)));
    var out := SelfClosingTextIntended(r.name, a);
    assert ToStringIntended(TagOf(parse, r), render) == out;
    TrimNameThenSpaces(r.name);
    SelfTextLayout(r.name, Trim(r.name), a);
    SelfLayoutMatch(out, Trim(r.name), a);
  }

  /** The characters of `<ref name="x" />`, one by one. */
  lemma RefSourceChars(src: string)
    requires src == "<ref name=\"x\" />"
    ensures |src| == 16
    ensures src[0] == '<' && src[1] == 'r' && src[2] == 'e' && src[3] == 'f' && src[4] == ' ' && src[5] == 'n' && src[6] == 'a' && src[7] == 'm' && src[8] == 'e' && src[9] == '=' && src[10] == '"' && src[11] == 'x' && src[12] == '"' && src[13] == ' ' && src[14] == '/' && src[15] == '>'
  {
  }

  /** The characters of `<refname="x"/>`, one by one. */
  lemma RefWrittenChars(bad: string)
    requires bad == "<refname=\"x\"/>"
    ensures |bad| == 14
    ensures bad[0] == '<' && bad[1] == 'r' && bad[2] == 'e' && bad[3] == 'f' && bad[4] == 'n' && bad[5] == 'a' && bad[6] == 'm' && bad[7] == 'e' && bad[8] == '=' && bad[9] == '"' && bad[10] == 'x' && bad[11] == '"' && bad[12] == '/' && bad[13] == '>'
  {
  }

  /** The characters of `<ref name="x"/>`, one by one. */
  lemma RefIntendedChars(good: string)
    requires good == "<ref name=\"x\"/>"
    ensures |good| == 15
    ensures good[0] == '<' && good[1] == 'r' && good[2] == 'e' && good[3] == 'f' && good[4] == ' ' && good[5] == 'n' && good[6] == 'a' && good[7] == 'm' && good[8] == 'e' && good[9] == '=' && good[10] == '"' && good[11] == 'x' && good[12] == '"' && good[13] == '/' && good[14] == '>'
  {
  }

  /** The self-closing match at the start of `<ref name="x" />`, covering it all. */
  lemma RefSourceExtracted(src: string)
    requires src == "<ref name=\"x\" />"
    ensures SelfClosingAt(src, 0) == Some(SelfHit(src, 0, 4, 14))
    ensures SelfHit(src, 0, 4, 14) == Hit(0, |src|, RawTag(src, "ref", " name=\"x\" ", "", true))
  {
    RefSourceChars(src);
    assert AlnumRunEnd(src, 1) == 4 by {
      AlnumRunEndAt(src, 1, 4);
    }
    assert FindGt(src, 4) == Some(15) by {
      FindGtAt(src, 4, 15);
    }
    assert SpaceRunEnd(src, 4) == 5 by {
      SpaceRunEndAt(src, 4, 5);
    }
    SelfClosingAtFromSearches(src, 0, 4, 15, 5);
    assert src[1..4] == "ref" && src[4..14] == " name=\"x\" " && src[0..16] == src;
  }

  /** The paired pattern finds nothing in `<ref name="x" />`: there is no `</ref>`. */
  lemma RefSourceNotPaired(src: string)
    requires src == "<ref name=\"x\" />"
    ensures Scanner.Pass(Scanner.Paired, src) == []
  {
    RefSourceChars(src);
    assert AlnumRunEnd(src, 1) == 4 by {
      AlnumRunEndAt(src, 1, 4);
    }
    assert FindGt(src, 4) == Some(15) by {
      FindGtAt(src, 4, 15);
    }
    assert FindClosing(src, "ref", 16) == None;
    forall p: nat | p < |src|
      ensures Scanner.MatchAt(Scanner.Paired, src, p).None?
    {
      if p != 0 {
        assert src[p] != '<';
      }
    }
    Scanner.PassWithoutMatch(Scanner.Paired, src);
  }

  /** `<ref name="x" />` holds exactly one tag, the self-closing one named `ref`. */
  lemma RefSourceFound(src: string)
    requires src == "<ref name=\"x\" />"
    ensures Scanner.FindSubTags(src) == [RawTag(src, "ref", " name=\"x\" ", "", true)]
  {
    RefSourceExtracted(src);
    RefSourceNotPaired(src);
    Scanner.PassWhole(Scanner.SelfClosing, src, SelfHit(src, 0, 4, 14));
  }

  /** Neither pattern finds a tag in `<refname="x"/>`. */
  lemma RefWrittenNotFound(bad: string)
    requires bad == "<refname=\"x\"/>"
    ensures Scanner.FindSubTags(bad) == []
  {
    RefWrittenChars(bad);
    assert AlnumRunEnd(bad, 1) == 8 by {
      AlnumRunEndAt(bad, 1, 8);
    }
    assert FindGt(bad, 8) == Some(13) by {
      FindGtAt(bad, 8, 13);
    }
    assert SpaceRunEnd(bad, 8) == 8;
    SelfClosingAtFromSearches(bad, 0, 8, 13, 8);
    forall p: nat | p < |bad|
      ensures Scanner.MatchAt(Scanner.Paired, bad, p).None?
      ensures Scanner.MatchAt(Scanner.SelfClosing, bad, p).None?
    {
      if p != 0 {
        assert bad[p] != '<';
      }
    }
    Scanner.PassWithoutMatch(Scanner.Paired, bad);
    Scanner.PassWithoutMatch(Scanner.SelfClosing, bad);
  }

  /** The paired pattern finds nothing in `<ref name="x"/>`: there is no `</ref>`. */
  lemma RefIntendedNotPaired(good: string)
    requires good == "<ref name=\"x\"/>"
    ensures Scanner.Pass(Scanner.Paired, good) == []
  {
    RefIntendedChars(good);
    assert AlnumRunEnd(good, 1) == 4 by {
      AlnumRunEndAt(good, 1, 4);
    }
    assert FindGt(good, 4) == Some(14) by {
      FindGtAt(good, 4, 14);
    }
    assert FindClosing(good, "ref", 15) == None;
    forall p: nat | p < |good|
      ensures Scanner.MatchAt(Scanner.Paired, good, p).None?
    {
      if p != 0 {
        assert good[p] != '<';
      }
    }
    Scanner.PassWithoutMatch(Scanner.Paired, good);
  }

  /** The self-closing match at the start of `<ref name="x"/>`, covering it all. */
  lemma RefIntendedSelfClosing(good: string)
    requires good == "<ref name=\"x\"/>"
    ensures SelfClosingAt(good, 0) == Some(SelfHit(good, 0, 4, 13))
    ensures SelfHit(good, 0, 4, 13) == Hit(0, |good|, RawTag(good, "ref", " name=\"x\"", "", true))
  {
    RefIntendedChars(good);
    assert AlnumRunEnd(good, 1) == 4 by {
      AlnumRunEndAt(good, 1, 4);
    }
    assert FindGt(good, 4) == Some(14) by {
      FindGtAt(good, 4, 14);
    }
    assert SpaceRunEnd(good, 4) == 5 by {
      SpaceRunEndAt(good, 4, 5);
    }
    assert SelfClosingAt(good, 0) == Some(SelfHit(good, 0, 4, 13)) by {
      SelfClosingAtFromSearches(good, 0, 4, 14, 5);
    }
    assert good[1..4] == "ref" && good[4..13] == " name=\"x\"" && good[0..15] == good;
  }

  /** `<ref name="x"/>` holds exactly one tag, self-closing, named `ref` with fragment ` name="x"`. */
  lemma RefIntendedFound(good: string)
    requires good == "<ref name=\"x\"/>"
    ensures Scanner.FindSubTags(good) == [RawTag(good, "ref", " name=\"x\"", "", true)]
  {
    RefIntendedNotPaired(good);
    RefIntendedSelfClosing(good);
    Scanner.PassWhole(Scanner.SelfClosing, good, SelfHit(good, 0, 4, 13));
  }

  /**
    The self-closing form as written is not read back. From `src` =
    `<ref name="x" />` the extractor takes the name `ref` and the fragment
    ` name="x" `; once the store renders that fragment as `name="x"`,
    `toString` writes `<refname="x"/>`, in which neither pattern finds a tag,
    whereas the corrected form `<ref name="x"/>` is read back as one tag named
    `ref` whose fragment trims to `name="x"`.
   */
  lemma SelfClosingToStringNotReadBack<S>(src: string, parse: string -> S, render: S -> string)
    requires src == "<ref name=\"x\" />"
    requires Trim(render(parse(" name=\"x\" "))) == "name=\"x\""
    ensures Scanner.FindSubTags(src) == [RawTag(src, "ref", " name=\"x\" ", "", true)]
    ensures var t := TagOf(parse, Scanner.FindSubTags(src)[0]);
            && ToString(t, render) == "<refname=\"x\"/>"
            && Scanner.FindSubTags(ToString(t, render)) == []
            && ToStringIntended(t, render) == "<ref name=\"x\"/>"
            && |Scanner.FindSubTags(ToStringIntended(t, render))| == 1
  {
    RefSourceFound(src);
    var r := RawTag(src, "ref", " name=\"x\" ", "", true);
    RefWritten(r, parse, render);
    RefWrittenNotFound(ToString(TagOf(parse, r), render));
    RefIntendedFound(ToStringIntended(TagOf(parse, r), render));
  }

  /** What `toString`, as written and corrected, makes of the tag extracted from `<ref name="x" />`. */
  lemma RefWritten<S>(r: RawTag, parse: string -> S, render: S -> string)
    requires r.name == "ref" && r.attributes == " name=\"x\" " && r.content == "" && r.selfClosing
    requires Trim(render(parse(" name=\"x\" "))) == "name=\"x\""
    ensures ToString(TagOf(parse, r), render) == "<refname=\"x\"/>"
    ensures ToStringIntended(TagOf(parse, r), render) == "<ref name=\"x\"/>"
  {
    var t := TagOf(parse, r);
    assert TrimmedAttrs(t, render) == "name=\"x\"";
    assert Trim("ref") == "ref" by {
      TrimOfUntrimmed("ref");
    }
  }
}

=== FILE: scanner.dfy ===
/**
  `preg_match_all` over one of the two patterns, and `find_sub_tags`, which runs
  both passes and lists the paired records before the self-closing ones.

  A pass searches for the leftmost position at which its pattern matches,
  records the match, and resumes the search at the end of that match (every
  match is non-empty, so the search always moves forward).
 */
module Scanner {
  import opened Optional
  import opened Lexing
  import PairedMatcher
  import SelfClosingMatcher

  /** Which of the two patterns a pass uses. */
  datatype Pattern = Paired | SelfClosing

  /** The match of `pat` that starts at `p`, if there is one. */
  function MatchAt(pat: Pattern, s: string, p: nat): (r: Option<Hit>)
    ensures r.Some? ==> r.value.start == p < r.value.end <= |s| && s[p] == '<'
    ensures r.Some? ==> (r.value.tag.selfClosing <==> pat == SelfClosing)
  {
    match pat
    case Paired => PairedMatcher.PairedAt(s, p)
    case SelfClosing =>
      var r := SelfClosingMatcher.SelfClosingAt(s, p);
      if r.Some? then
        assert s[p] == '<' by {
          var q, j, grouped, t := SelfClosingMatcher.ScannerParse(s, p);
        }
        r
      else r
  }

  /** `m` gives, for each position of a text of length `n`, the match starting there, if any. */
  ghost predicate IsMatcher(m: nat -> Option<Hit>, n: nat) {
    forall p: nat :: m(p).Some? ==> m(p).value.start == p < m(p).value.end <= n
  }

  /** The search from position `i` on, in the order the matches are found. */
  function ScanFrom(m: nat -> Option<Hit>, n: nat, i: nat): (hits: seq<Hit>)
    requires IsMatcher(m, n) && i <= n
    ensures forall k :: 0 <= k < |hits| ==> i <= hits[k].start && m(hits[k].start) == Some(hits[k])
    ensures forall j, k :: 0 <= j < k < |hits| ==> hits[j].end <= hits[k].start
    decreases n - i
  {
    if i == n then []
    else
      match m(i)
      case Some(h) => [h] + ScanFrom(m, n, h.end)
      case None => ScanFrom(m, n, i + 1)
  }

  /** Position `p` lies inside one of the matches. */
  ghost predicate Covered(hits: seq<Hit>, p: nat) {
    exists k :: 0 <= k < |hits| && hits[k].start <= p < hits[k].end
  }

  /**
    What `preg_match_all` reports from `i` on, described without the search:
    matches of `m` at or after `i`, in order and not overlapping, such that
    every position at which a match starts lies inside one of them.
   */
  ghost predicate IsLeftmostScan(m: nat -> Option<Hit>, n: nat, i: nat, hits: seq<Hit>) {
    && (forall k :: 0 <= k < |hits| ==> i <= hits[k].start && m(hits[k].start) == Some(hits[k]))
    && (forall j, k :: 0 <= j < k < |hits| ==> hits[j].end <= hits[k].start)
    && (forall p: nat {:trigger Covered(hits, p)} :: i <= p < n && m(p).Some? ==> Covered(hits, p))
  }

  /** Every position at which a match starts lies inside some reported match. */
  lemma {:induction false} ScanFromCovers(m: nat -> Option<Hit>, n: nat, i: nat, p: nat)
    requires IsMatcher(m, n) && i <= p < n && m(p).Some?
    ensures Covered(ScanFrom(m, n, i), p)
    decreases n - i
  {
    var hits := ScanFrom(m, n, i);
    match m(i)
    case Some(h) =>
      assert hits == [h] + ScanFrom(m, n, h.end);
      if p >= h.end {
        ScanFromCovers(m, n, h.end, p);
        var rest := ScanFrom(m, n, h.end);
        var k :| 0 <= k < |rest| && rest[k].start <= p < rest[k].end;
        assert hits[k + 1] == rest[k];
      } else {
        assert hits[0].start <= p < hits[0].end;
      }
    case None =>
      assert hits == ScanFrom(m, n, i + 1);
      ScanFromCovers(m, n, i + 1, p);
  }

  /** The search is a leftmost scan. */
  lemma ScanFromIsLeftmost(m: nat -> Option<Hit>, n: nat, i: nat)
    requires IsMatcher(m, n) && i <= n
    ensures IsLeftmostScan(m, n, i, ScanFrom(m, n, i))
  {
    forall p: nat | i <= p < n && m(p).Some?
      ensures Covered(ScanFrom(m, n, i), p)
    {
      ScanFromCovers(m, n, i, p);
    }
  }

  /** Dropping the first match of a leftmost scan leaves one from that match's end. */
  lemma TailIsLeftmost(m: nat -> Option<Hit>, n: nat, i: nat, hits: seq<Hit>)
    requires IsMatcher(m, n) && hits != [] && IsLeftmostScan(m, n, i, hits)
    ensures IsLeftmostScan(m, n, hits[0].end, hits[1..])
  {
    var rest := hits[1..];
    assert m(hits[0].start) == Some(hits[0]);
    forall k | 0 <= k < |rest|
      ensures hits[0].end <= rest[k].start && m(rest[k].start) == Some(rest[k])
    {
      assert rest[k] == hits[k + 1];
    }
    forall j, k | 0 <= j < k < |rest|
      ensures rest[j].end <= rest[k].start
    {
      assert rest[j] == hits[j + 1] && rest[k] == hits[k + 1];
    }
    forall p: nat | hits[0].end <= p < n && m(p).Some?
      ensures Covered(rest, p)
    {
      assert i <= p && Covered(hits, p);
      var k :| 0 <= k < |hits| && hits[k].start <= p < hits[k].end;
      assert k != 0;
      assert rest[k - 1] == hits[k];
    }
  }

  /** A leftmost scan from `i` is one from `i + 1` when nothing matches at `i`. */
  lemma UnskipIsLeftmost(m: nat -> Option<Hit>, n: nat, i: nat, hits: seq<Hit>)
    requires i < n && m(i).None?
    requires IsLeftmostScan(m, n, i, hits)
    ensures IsLeftmostScan(m, n, i + 1, hits)
  {
    forall k | 0 <= k < |hits|
      ensures i + 1 <= hits[k].start
    {
      assert m(hits[k].start) == Some(hits[k]);
    }
  }

  /** A leftmost scan from a position where a match starts begins with that match. */
  lemma HeadOfLeftmost(m: nat -> Option<Hit>, n: nat, i: nat, hits: seq<Hit>, h: Hit)
    requires IsMatcher(m, n) && i < n && m(i) == Some(h)
    requires IsLeftmostScan(m, n, i, hits)
    ensures hits != [] && hits[0] == h
  {
    assert Covered(hits, i);
    var k :| 0 <= k < |hits| && hits[k].start <= i < hits[k].end;
    assert m(hits[0].start) == Some(hits[0]);
    assert k == 0;
  }

  /** A leftmost scan's first match, if any, starts inside the text. */
  lemma FirstBeforeEnd(m: nat -> Option<Hit>, n: nat, i: nat, hits: seq<Hit>)
    requires IsMatcher(m, n) && IsLeftmostScan(m, n, i, hits)
    ensures hits == [] || i <= hits[0].start < n
  {
    if hits != [] {
      assert m(hits[0].start) == Some(hits[0]);
    }
  }

  /** The leftmost scan from `i` is unique: it is the search. */
  lemma {:induction false} LeftmostScanUnique(m: nat -> Option<Hit>, n: nat, i: nat, hits: seq<Hit>)
    requires IsMatcher(m, n) && i <= n
    requires IsLeftmostScan(m, n, i, hits)
    ensures hits == ScanFrom(m, n, i)
    decreases n - i
  {
    if i == n {
      FirstBeforeEnd(m, n, i, hits);
    } else if m(i).Some? {
      var h := m(i).value;
      HeadOfLeftmost(m, n, i, hits, h);
      TailIsLeftmost(m, n, i, hits);
      LeftmostScanUnique(m, n, h.end, hits[1..]);
      assert hits == [h] + hits[1..];
    } else {
      UnskipIsLeftmost(m, n, i, hits);
      LeftmostScanUnique(m, n, i + 1, hits);
    }
  }

  /** The search and the leftmost-scan description agree on every candidate list. */
  lemma ScanFromIsLeftmostScan(m: nat -> Option<Hit>, n: nat, hits: seq<Hit>)
    requires IsMatcher(m, n)
    ensures hits == ScanFrom(m, n, 0) <==> IsLeftmostScan(m, n, 0, hits)
  {
    ScanFromIsLeftmost(m, n, 0);
    if IsLeftmostScan(m, n, 0, hits) {
      LeftmostScanUnique(m, n, 0, hits);
    }
  }

  /** With no match anywhere from `i` on, the search finds nothing. */
  lemma {:induction false} ScanWithoutMatch(m: nat -> Option<Hit>, n: nat, i: nat)
    requires IsMatcher(m, n) && i <= n
    requires forall p: nat :: i <= p < n ==> m(p).None?
    ensures ScanFrom(m, n, i) == []
    decreases n - i
  {
    if i < n {
      assert m(i).None?;
      ScanWithoutMatch(m, n, i + 1);
    }
  }

  /** The matcher of one pattern over `s`. */
  function Matcher(pat: Pattern, s: string): (m: nat -> Option<Hit>)
    ensures IsMatcher(m, |s|)
    ensures forall p: nat :: m(p) == MatchAt(pat, s, p)
  {
    (p: nat) => MatchAt(pat, s, p)
  }

  /** `preg_match_all` of one pattern over `s`. */
  function Pass(pat: Pattern, s: string): (hits: seq<Hit>)
    ensures forall k :: 0 <= k < |hits| ==> MatchAt(pat, s, hits[k].start) == Some(hits[k])
    ensures forall j, k :: 0 <= j < k < |hits| ==> hits[j].end <= hits[k].start
  {
    ScanFrom(Matcher(pat, s), |s|, 0)
  }

  /** A pass is exactly the leftmost scan of its pattern over the whole input. */
  lemma PassIsLeftmostScan(pat: Pattern, s: string, hits: seq<Hit>)
    ensures hits == Pass(pat, s) <==> IsLeftmostScan(Matcher(pat, s), |s|, 0, hits)
  {
    ScanFromIsLeftmostScan(Matcher(pat, s), |s|, hits);
  }


  /** Text without `<` yields no match in either pass. */
  lemma PassWithoutLt(pat: Pattern, s: string)
    requires forall k :: 0 <= k < |s| ==> s[k] != '<'
    ensures Pass(pat, s) == []
  {
    ScanWithoutMatch(Matcher(pat, s), |s|, 0);
  }

  /** A pattern that matches nowhere in `s` yields an empty pass. */
  lemma PassWithoutMatch(pat: Pattern, s: string)
    requires forall p: nat :: p < |s| ==> MatchAt(pat, s, p).None?
    ensures Pass(pat, s) == []
  {
    ScanWithoutMatch(Matcher(pat, s), |s|, 0);
  }

  /** A match at the start that covers the whole text is the only match of the pass. */
  lemma PassWhole(pat: Pattern, s: string, h: Hit)
    requires MatchAt(pat, s, 0) == Some(h) && h.end == |s|
    ensures Pass(pat, s) == [h]
  {
    assert ScanFrom(Matcher(pat, s), |s|, |s|) == [];
  }

  /** The records of a list of matches, in order. */
  function Records(hits: seq<Hit>): (ts: seq<RawTag>)
    ensures |ts| == |hits| && forall k :: 0 <= k < |hits| ==> ts[k] == hits[k].tag
  {
    if hits == [] then [] else [hits[0].tag] + Records(hits[1..])
  }

  /** `find_sub_tags`: the paired pass's records, then the self-closing pass's records. */
  function FindSubTags(s: string): (r: seq<RawTag>)
    ensures var n := |Pass(Paired, s)|;
            && n <= |r|
            && (forall k :: 0 <= k < n ==> !r[k].selfClosing)
            && (forall k :: n <= k < |r| ==> r[k].selfClosing)
  {
    Records(Pass(Paired, s)) + Records(Pass(SelfClosing, s))
  }

  /** Every paired record precedes every self-closing record. */
  lemma FindSubTagsOrdered(s: string, a: nat, b: nat)
    requires a < |FindSubTags(s)| && b < |FindSubTags(s)|
    requires FindSubTags(s)[a].selfClosing && !FindSubTags(s)[b].selfClosing
    ensures b < a
  {
  }

  /** The record of a match is the matched text, in the shape its pattern gives. */
  lemma MatchShape(pat: Pattern, s: string, p: nat, h: Hit)
    requires MatchAt(pat, s, p) == Some(h)
    ensures h.tag.original == s[h.start..h.end]
    ensures pat == Paired ==> PairedMatcher.PairedShape(h.tag)
    ensures pat == SelfClosing ==> SelfClosingMatcher.SelfClosingShape(h.tag)
  {
    match pat
    case Paired =>
      PairedMatcher.PairedAtSound(s, p);
      var q, g, e :| PairedMatcher.PairedRegexAt(s, p, q, g, e) && h == PairedMatcher.PairedHit(s, p, q, g, e);
      PairedMatcher.PairedHitShape(s, p, q, g, e);
    case SelfClosing =>
      var q, j, grouped, t := SelfClosingMatcher.ScannerParse(s, p);
      SelfClosingMatcher.SelfHitShape(s, p, q, j, grouped, t);
  }

  /**
    Every record `find_sub_tags` lists is the text of a match somewhere in the
    input, with the paired or the self-closing shape.
   */
  lemma FindSubTagsShape(s: string, k: nat)
    requires k < |FindSubTags(s)|
    ensures var t := FindSubTags(s)[k];
            && (exists a: nat, b: nat :: a <= b <= |s| && t.original == s[a..b])
            && (if t.selfClosing then SelfClosingMatcher.SelfClosingShape(t) else PairedMatcher.PairedShape(t))
  {
    var paired := Pass(Paired, s);
    var closing := Pass(SelfClosing, s);
    if k < |paired| {
      MatchShape(Paired, s, paired[k].start, paired[k]);
    } else {
      MatchShape(SelfClosing, s, closing[k - |paired|].start, closing[k - |paired|]);
    }
  }
}

=== FILE: self_closing.dfy ===
/**
  The self-closing pattern `<(?<tag>[a-zA-Z0-9]+ *)(\s[^>]*)?\/>` (flags `i`, `s`)
  as a deterministic scanner at one start position.

  After `<` and the maximal alphanumeric run `R`, everything up to the first `>`
  must end in `/`. Writing `M` for the text between `R` and that `/`, and `k` for
  the number of spaces `M` starts with, backtracking settles on:
  - `M` all spaces: the name takes them all, no attribute fragment;
  - `M[k]` whitespace other than a space: the name takes the `k` spaces and the
    fragment is the rest of `M`;
  - `M[k]` not whitespace and `k >= 1`: the name gives its last space back to
    the fragment, which is that space and the rest of `M`;
  - otherwise no match at this position.
 */
module SelfClosingMatcher {
  import opened Optional
  import opened Text
  import opened Lexing

  /** The match for `<` at `p`, the name ending at `nameEnd` and the final `/` at `slash`. */
  function SelfHit(s: string, p: nat, nameEnd: nat, slash: nat): (h: Hit)
    requires p < nameEnd <= slash && slash + 2 <= |s|
    ensures h.start == p < h.end <= |s| && h.tag.selfClosing
  {
    Hit(p, slash + 2, RawTag(s[p..slash + 2], s[p + 1..nameEnd], s[nameEnd..slash], "", true))
  }

  /** The self-closing match starting at `p`, if the pattern matches there. */
  function SelfClosingAt(s: string, p: nat): (r: Option<Hit>)
    ensures r.Some? ==> r.value.start == p < r.value.end <= |s| && r.value.tag.selfClosing
  {
    if p >= |s| || s[p] != '<' then None
    else
      var q := AlnumRunEnd(s, p + 1);
      if q == p + 1 then None
      else
        match FindGt(s, q)
        case None => None
        case Some(g) =>
          if g == q || s[g - 1] != '/' then None
          else
            var k := SpaceRunEnd(s, q);
            assert s[g - 1] != ' ';
            assert k <= g - 1;
            if k == g - 1 || IsSpace(s[k]) then Some(SelfHit(s, p, k, g - 1))
            else if q < k then Some(SelfHit(s, p, k - 1, g - 1))
            else None
  }

  /** `SelfClosingAt` assembled from the results of its three searches. */
  lemma SelfClosingAtFromSearches(s: string, p: nat, q: nat, g: nat, k: nat)
    requires p < |s| && s[p] == '<'
    requires p + 1 < q <= |s| && AlnumRunEnd(s, p + 1) == q
    requires FindGt(s, q) == Some(g) && q < g && s[g - 1] == '/'
    requires SpaceRunEnd(s, q) == k
    ensures k <= g - 1
    ensures SelfClosingAt(s, p) == if k == g - 1 || IsSpace(s[k]) then Some(SelfHit(s, p, k, g - 1))
                                   else if q < k then Some(SelfHit(s, p, k - 1, g - 1))
                                   else None
  {
    assert s[g - 1] != ' ';
  }

  /**
    One way the pattern can match at `p`: `<`, the name run ending at `q`, `j`
    spaces taken by ` *`, then either the group `\s[^>]*` (when `grouped`) or
    nothing, and `/>` with the `/` at `t`.
   */
  ghost predicate SelfClosingParse(s: string, p: nat, q: nat, j: nat, grouped: bool, t: nat) {
    && p + 1 < q && q + j <= t && t + 1 < |s|
    && s[p] == '<'
    && (forall k :: p < k < q ==> IsAlnum(s[k]))
    && (forall k :: q <= k < q + j ==> s[k] == ' ')
    && (if grouped then q + j < t && IsSpace(s[q + j]) && forall k :: q + j < k < t ==> s[k] != '>'
        else t == q + j)
    && s[t] == '/' && s[t + 1] == '>'
  }

  /**
    The backtracking order: the greedy ` *` tries more spaces first, and for the
    same number of spaces the optional group is tried before skipping it.
   */
  predicate Prefers(j': nat, grouped': bool, j: nat, grouped: bool) {
    j' > j || (j' == j && grouped' && !grouped)
  }

  /** The parse the regex engine reports: a parse no other parse is preferred to. */
  ghost predicate SelfClosingRegexAt(s: string, p: nat, q: nat, j: nat, grouped: bool, t: nat) {
    && SelfClosingParse(s, p, q, j, grouped, t)
    && forall q': nat, j': nat, grouped': bool, t': nat :: SelfClosingParse(s, p, q', j', grouped', t') ==> !Prefers(j', grouped', j, grouped)
  }

  /** Every parse has the scanner's name run, ends at the first `>` and takes at most the available spaces. */
  lemma ParseDetermined(s: string, p: nat, q: nat, j: nat, grouped: bool, t: nat)
    requires SelfClosingParse(s, p, q, j, grouped, t)
    ensures AlnumRunEnd(s, p + 1) == q
    ensures FindGt(s, q) == Some(t + 1)
    ensures q + j <= SpaceRunEnd(s, q)
  {
    assert !IsAlnum(s[q]) by {
      if j == 0 && !grouped {
        assert s[q] == '/';
      }
    }
    AlnumRunEndAt(s, p + 1, q);
    assert NoGtIn(s, q, t + 1) by {
      forall k | q <= k < t + 1
        ensures s[k] != '>'
      {
        if k == q + j && grouped {
          assert IsSpace(s[k]);
        }
      }
    }
    FindGtAt(s, q, t + 1);
  }

  /** The parse behind a match the scanner reports. */
  lemma ScannerParse(s: string, p: nat) returns (q: nat, j: nat, grouped: bool, t: nat)
    requires SelfClosingAt(s, p).Some?
    ensures SelfClosingParse(s, p, q, j, grouped, t)
    ensures q + j <= t && SelfClosingAt(s, p).value == SelfHit(s, p, q + j, t)
    ensures var k := SpaceRunEnd(s, q);
            (k == t && j == k - q && !grouped)
            || (k < t && IsSpace(s[k]) && j == k - q && grouped)
            || (q < k < t && !IsSpace(s[k]) && j == k - 1 - q && grouped)
  {
    q := AlnumRunEnd(s, p + 1);
    var g := FindGt(s, q).value;
    t := g - 1;
    var k := SpaceRunEnd(s, q);
    SelfClosingAtFromSearches(s, p, q, g, k);
    if k == t {
      j, grouped := k - q, false;
    } else if IsSpace(s[k]) {
      j, grouped := k - q, true;
    } else {
      j, grouped := k - 1 - q, true;
    }
    ParseFromSearches(s, p, q, g, k, j, grouped);
  }

  /** The searches' positions spell out a parse of the pattern. */
  lemma ParseFromSearches(s: string, p: nat, q: nat, g: nat, k: nat, j: nat, grouped: bool)
    requires p < |s| && s[p] == '<'
    requires p + 1 < q <= |s| && AlnumRunEnd(s, p + 1) == q
    requires FindGt(s, q) == Some(g) && q < g && s[g - 1] == '/'
    requires SpaceRunEnd(s, q) == k && k <= g - 1
    requires (k == g - 1 && j == k - q && !grouped)
             || (k < g - 1 && IsSpace(s[k]) && j == k - q && grouped)
             || (q < k < g - 1 && !IsSpace(s[k]) && j == k - 1 - q && grouped)
    ensures SelfClosingParse(s, p, q, j, grouped, g - 1)
  {
    assert NoGtIn(s, q, g);
  }

  /** No parse is preferred to the one behind the scanner's match. */
  lemma ScannerParseIsBest(s: string, p: nat, q: nat, j: nat, grouped: bool, t: nat)
    requires SelfClosingParse(s, p, q, j, grouped, t)
    requires var k := SpaceRunEnd(s, q);
             (k == t && j == k - q && !grouped)
             || (k < t && IsSpace(s[k]) && j == k - q && grouped)
             || (q < k < t && !IsSpace(s[k]) && j == k - 1 - q && grouped)
    ensures SelfClosingRegexAt(s, p, q, j, grouped, t)
  {
    ParseDetermined(s, p, q, j, grouped, t);
    var k := SpaceRunEnd(s, q);
    forall q': nat, j': nat, grouped': bool, t': nat | SelfClosingParse(s, p, q', j', grouped', t')
      ensures !Prefers(j', grouped', j, grouped)
    {
      ParseDetermined(s, p, q', j', grouped', t');
      assert q' == q && t' == t && q + j' <= k;
    }
  }

  lemma SelfClosingAtSound(s: string, p: nat)
    requires SelfClosingAt(s, p).Some?
    ensures exists q: nat, j: nat, grouped: bool, t: nat :: SelfClosingRegexAt(s, p, q, j, grouped, t)
                                       && SelfClosingAt(s, p).value == SelfHit(s, p, q + j, t)
  {
    var q, j, grouped, t := ScannerParse(s, p);
    ScannerParseIsBest(s, p, q, j, grouped, t);
  }

  /** Whenever the pattern can match at all, the scanner reports a match. */
  lemma ParseGivesMatch(s: string, p: nat, q: nat, j: nat, grouped: bool, t: nat)
    requires SelfClosingParse(s, p, q, j, grouped, t)
    ensures SelfClosingAt(s, p).Some?
  {
    ParseDetermined(s, p, q, j, grouped, t);
    var k := SpaceRunEnd(s, q);
    assert s[t] != ' ';
    assert k <= t;
    if k == q && k != t {
      assert !grouped ==> t == q;
    }
  }

  lemma SelfClosingAtComplete(s: string, p: nat, q: nat, j: nat, grouped: bool, t: nat)
    requires SelfClosingRegexAt(s, p, q, j, grouped, t)
    ensures SelfClosingAt(s, p) == Some(SelfHit(s, p, q + j, t))
  {
    ParseGivesMatch(s, p, q, j, grouped, t);
    var q2, j2, grouped2, t2 := ScannerParse(s, p);
    assert q2 == q && t2 == t by {
      ParseDetermined(s, p, q, j, grouped, t);
      ParseDetermined(s, p, q2, j2, grouped2, t2);
    }
    assert !Prefers(j, grouped, j2, grouped2) by {
      ScannerParseIsBest(s, p, q2, j2, grouped2, t2);
    }
    assert !Prefers(j2, grouped2, j, grouped);
  }

  /** The scanner reports exactly the pattern's match: soundness and completeness. */
  lemma SelfClosingAtIsRegexMatch(s: string, p: nat, h: Hit)
    ensures SelfClosingAt(s, p) == Some(h) <==>
            exists q: nat, j: nat, grouped: bool, t: nat :: SelfClosingRegexAt(s, p, q, j, grouped, t) && h == SelfHit(s, p, q + j, t)
  {
    if SelfClosingAt(s, p) == Some(h) {
      SelfClosingAtSound(s, p);
    }
    forall q: nat, j: nat, grouped: bool, t: nat | SelfClosingRegexAt(s, p, q, j, grouped, t) && h == SelfHit(s, p, q + j, t)
      ensures SelfClosingAt(s, p) == Some(h)
    {
      SelfClosingAtComplete(s, p, q, j, grouped, t);
    }
  }

  /** One or more alphanumerics followed by nothing but spaces. */
  predicate NameThenSpaces(n: string) {
    var m := AlnumRunEnd(n, 0);
    m > 0 && forall i :: m <= i < |n| ==> n[i] == ' '
  }

  /** `trim()` of such a name is its alphanumeric part. */
  lemma TrimNameThenSpaces(n: string)
    requires NameThenSpaces(n)
    ensures Trim(n) == n[..AlnumRunEnd(n, 0)] && IsName(Trim(n))
  {
    var m := AlnumRunEnd(n, 0);
    assert n == n[..m] + Spaces(|n| - m);
    TrimNameSpaces(n[..m], |n| - m);
  }

  /**
    A self-closing record: no content, a name that is an alphanumeric run followed
    by zero or more spaces, an attribute fragment that is empty or starts with
    whitespace, and the text `<name attrs/>` with no `>` before its last character.
   */
  ghost predicate SelfClosingShape(t: RawTag) {
    && t.selfClosing && t.content == []
    && NameThenSpaces(t.name)
    && (t.attributes == [] || IsSpace(t.attributes[0]))
    && t.original == "<" + t.name + t.attributes + "/>"
    && forall i :: 0 <= i < |t.original| - 1 ==> t.original[i] != '>'
  }

  /** The record's text splits at the parse's positions into `<name attrs/>`. */
  lemma SelfHitText(s: string, p: nat, nameEnd: nat, t: nat)
    requires p < nameEnd <= t && t + 2 <= |s|
    requires s[p] == '<' && s[t] == '/' && s[t + 1] == '>'
    ensures var r := SelfHit(s, p, nameEnd, t).tag;
            r.original == s[p..t + 2] && r.original == "<" + r.name + r.attributes + "/>"
  {
    var r := SelfHit(s, p, nameEnd, t).tag;
    SliceSplit(s, p, p + 1, t + 2);
    SliceSplit(s, p + 1, nameEnd, t + 2);
    SliceSplit(s, nameEnd, t, t + 2);
    assert s[p..p + 1] == "<" && s[t..t + 2] == "/>";
  }

  /** The name a parse captures is the alphanumeric run followed by the spaces taken. */
  lemma ParseName(s: string, p: nat, q: nat, j: nat, grouped: bool, t: nat)
    requires SelfClosingParse(s, p, q, j, grouped, t)
    ensures NameThenSpaces(SelfHit(s, p, q + j, t).tag.name)
    ensures AlnumRunEnd(SelfHit(s, p, q + j, t).tag.name, 0) == q - p - 1
  {
    var n := SelfHit(s, p, q + j, t).tag.name;
    assert forall k :: 0 <= k < |n| ==> n[k] == s[p + 1 + k];
    if j > 0 {
      AlnumRunEndAt(n, 0, q - p - 1);
    } else {
      assert !IsAlnum(s[q]) by {
        if !grouped {
          assert s[q] == '/';
        }
      }
    }
  }

  /** A parse has no `>` before the final one. */
  lemma ParseNoGt(s: string, p: nat, q: nat, j: nat, grouped: bool, t: nat)
    requires SelfClosingParse(s, p, q, j, grouped, t)
    ensures NoGtIn(s, p, t + 1)
  {
    forall k | p <= k < t + 1
      ensures s[k] != '>'
    {
      if k == q + j && grouped {
        assert IsSpace(s[k]);
      }
    }
  }

  /** The record of a pattern match has the self-closing shape and is the matched text. */
  lemma SelfHitShape(s: string, p: nat, q: nat, j: nat, grouped: bool, t: nat)
    requires SelfClosingParse(s, p, q, j, grouped, t)
    ensures SelfClosingShape(SelfHit(s, p, q + j, t).tag)
    ensures SelfHit(s, p, q + j, t).tag.original == s[p..t + 2]
  {
    var r := SelfHit(s, p, q + j, t).tag;
    assert r.original == "<" + r.name + r.attributes + "/>" && r.original == s[p..t + 2] by {
      SelfHitText(s, p, q + j, t);
    }
    assert NameThenSpaces(r.name) by {
      ParseName(s, p, q, j, grouped, t);
    }
    assert r.attributes == [] || IsSpace(r.attributes[0]) by {
      if r.attributes != [] {
        assert r.attributes[0] == s[q + j];
      }
    }
    assert forall i :: 0 <= i < |r.original| - 1 ==> r.original[i] != '>' by {
      ParseNoGt(s, p, q, j, grouped, t);
      forall i | 0 <= i < |r.original| - 1
        ensures r.original[i] != '>'
      {
        assert r.original[i] == s[p + i];
      }
    }
    assert SelfClosingShape(r);
  }
}

=== FILE: seqs.dfy ===
/**
  Order-preserving selection from a sequence: the `foreach … if … $out[] = …`
  loops of `parse` and `getTags`, and the subsequence relation that describes
  what they return.
 */
module Seqs {
  /** `r` is `xs` with some elements left out, the rest kept in order. */
  ghost predicate IsSubsequence<T>(r: seq<T>, xs: seq<T>)
    decreases |xs|
  {
    if r == [] then true
    else if xs == [] then false
    else (r[0] == xs[0] && IsSubsequence(r[1..], xs[1..])) || IsSubsequence(r, xs[1..])
  }

  /** Number of elements of `xs` that satisfy `p`. */
  function Count<T>(xs: seq<T>, p: T -> bool): nat {
    if xs == [] then 0 else (if p(xs[0]) then 1 else 0) + Count(xs[1..], p)
  }

  /** The elements of `xs` that satisfy `p`, in order. */
  function Filter<T>(xs: seq<T>, p: T -> bool): (r: seq<T>)
    ensures IsSubsequence(r, xs)
    ensures forall k :: 0 <= k < |r| ==> p(r[k])
    ensures |r| == Count(xs, p)
  {
    if xs == [] then []
    else if p(xs[0]) then
      var r := [xs[0]] + Filter(xs[1..], p);
      assert r[1..] == Filter(xs[1..], p);
      r
    else
      var r := Filter(xs[1..], p);
      assert r == [] || IsSubsequence(r, xs[1..]);
      r
  }

  /** Every element of a subsequence is an element of the sequence. */
  lemma {:induction false} SubsequenceMembers<T>(r: seq<T>, xs: seq<T>, x: T)
    requires IsSubsequence(r, xs) && x in r
    ensures x in xs
    decreases |xs|
  {
    if r[0] == xs[0] && IsSubsequence(r[1..], xs[1..]) {
      if x != r[0] {
        assert x in r[1..];
        SubsequenceMembers(r[1..], xs[1..], x);
      }
    } else {
      SubsequenceMembers(r, xs[1..], x);
    }
  }

  /** A subsequence of elements satisfying `p` is at most as long as their count. */
  lemma {:induction false} SubsequenceCountBound<T>(r: seq<T>, xs: seq<T>, p: T -> bool)
    requires IsSubsequence(r, xs)
    requires forall k :: 0 <= k < |r| ==> p(r[k])
    ensures |r| <= Count(xs, p)
    decreases |xs|
  {
    if r == [] {
    } else if r[0] == xs[0] && IsSubsequence(r[1..], xs[1..]) {
      assert p(xs[0]);
      SubsequenceCountBound(r[1..], xs[1..], p);
    } else {
      SubsequenceCountBound(r, xs[1..], p);
    }
  }

  /** A subsequence of elements satisfying `p` that has all of them is the filter. */
  lemma {:induction false} FilterUnique<T>(r: seq<T>, xs: seq<T>, p: T -> bool)
    requires IsSubsequence(r, xs)
    requires forall k :: 0 <= k < |r| ==> p(r[k])
    requires |r| == Count(xs, p)
    ensures r == Filter(xs, p)
    decreases |xs|
  {
    if xs == [] {
    } else if r != [] && r[0] == xs[0] && IsSubsequence(r[1..], xs[1..]) {
      assert p(xs[0]);
      FilterUnique(r[1..], xs[1..], p);
      assert r == [r[0]] + r[1..];
    } else if r == [] {
      assert Count(xs, p) == 0;
      assert !p(xs[0]);
      FilterUnique(r, xs[1..], p);
    } else {
      assert IsSubsequence(r, xs[1..]);
      SubsequenceCountBound(r, xs[1..], p);
      assert !p(xs[0]);
      FilterUnique(r, xs[1..], p);
    }
  }

  /**
    The filter is exactly the subsequence of elements satisfying `p` that keeps
    every one of them.
   */
  lemma FilterIsExactSubsequence<T>(r: seq<T>, xs: seq<T>, p: T -> bool)
    ensures r == Filter(xs, p) <==>
            IsSubsequence(r, xs) && (forall k :: 0 <= k < |r| ==> p(r[k])) && |r| == Count(xs, p)
  {
    if IsSubsequence(r, xs) && (forall k :: 0 <= k < |r| ==> p(r[k])) && |r| == Count(xs, p) {
      FilterUnique(r, xs, p);
    }
  }

  /** Filtering a concatenation filters each part. */
  lemma {:induction false} FilterAppend<T>(a: seq<T>, b: seq<T>, p: T -> bool)
    ensures Filter(a + b, p) == Filter(a, p) + Filter(b, p)
    decreases |a|
  {
    if a == [] {
      assert a + b == b;
    } else {
      assert (a + b)[0] == a[0] && (a + b)[1..] == a[1..] + b;
      FilterAppend(a[1..], b, p);
    }
  }

  /** When no element satisfies `p`, the filter is empty. */
  lemma {:induction false} FilterNone<T>(xs: seq<T>, p: T -> bool)
    requires forall k :: 0 <= k < |xs| ==> !p(xs[k])
    ensures Filter(xs, p) == []
    decreases |xs|
  {
    if xs != [] {
      assert !p(xs[0]);
      FilterNone(xs[1..], p);
    }
  }

  /** When every element satisfies `p`, the filter keeps them all. */
  lemma {:induction false} FilterAll<T>(xs: seq<T>, p: T -> bool)
    requires forall k :: 0 <= k < |xs| ==> p(xs[k])
    ensures Filter(xs, p) == xs
    decreases |xs|
  {
    if xs != [] {
      assert p(xs[0]);
      FilterAll(xs[1..], p);
      assert xs == [xs[0]] + xs[1..];
    }
  }

  /** An element that satisfies `p` is kept by the filter. */
  lemma {:induction false} FilterKeeps<T>(xs: seq<T>, p: T -> bool, x: T)
    requires x in xs && p(x)
    ensures x in Filter(xs, p)
    decreases |xs|
  {
    if xs[0] != x {
      assert x in xs[1..];
      FilterKeeps(xs[1..], p, x);
    }
  }

  /** All elements failing `q` come before all elements satisfying `q`. */
  ghost predicate FalseBeforeTrue<T>(xs: seq<T>, q: T -> bool) {
    forall a, b :: 0 <= a < |xs| && 0 <= b < |xs| && q(xs[a]) && !q(xs[b]) ==> b < a
  }

  /** Filtering keeps that arrangement. */
  lemma {:induction false} FilterFalseBeforeTrue<T>(xs: seq<T>, p: T -> bool, q: T -> bool)
    requires FalseBeforeTrue(xs, q)
    ensures FalseBeforeTrue(Filter(xs, p), q)
    decreases |xs|
  {
    if xs != [] {
      var tail := Filter(xs[1..], p);
      assert FalseBeforeTrue(xs[1..], q) by {
        forall a, b | 0 <= a < |xs| - 1 && 0 <= b < |xs| - 1 && q(xs[1..][a]) && !q(xs[1..][b])
          ensures b < a
        {
          assert xs[1..][a] == xs[a + 1] && xs[1..][b] == xs[b + 1];
        }
      }
      FilterFalseBeforeTrue(xs[1..], p, q);
      if p(xs[0]) {
        var r := [xs[0]] + tail;
        assert r == Filter(xs, p);
        if q(xs[0]) {
          forall y | y in tail
            ensures q(y)
          {
            SubsequenceMembers(tail, xs[1..], y);
            var j :| 0 <= j < |xs[1..]| && xs[1..][j] == y;
            assert xs[j + 1] == y;
          }
        }
        forall a, b | 0 <= a < |r| && 0 <= b < |r| && q(r[a]) && !q(r[b])
          ensures b < a
        {
          if a != 0 && b != 0 {
            assert r[a] == tail[a - 1] && r[b] == tail[b - 1];
          }
        }
      }
    }
  }
}

=== FILE: tag.dfy ===
/**
  The `Tag` value entity: name, content, attribute fragment, original text,
  self-closing flag and the attribute store built from the fragment.

  The `Attribute` class is not part of this model. Its constructor is the
  parameter `parse: string -> S` (the store built from a fragment) and its
  `toString` the parameter `render: S -> string`; nothing is assumed about
  either beyond what a lemma states as a hypothesis.
 */
module DataModel {
  import opened Text

  /** A tag; `attrs` is the attribute store owned by the tag. */
  datatype Tag<S> = Tag(name: string, content: string, attributes: string, originalText: string, selfClosing: bool, attrs: S)

  /** The store is the one built from the current fragment. */
  ghost predicate Consistent<S>(t: Tag<S>, parse: string -> S) {
    t.attrs == parse(t.attributes)
  }

  /** The constructor: every field verbatim, and the store built from the fragment. */
  function NewTag<S>(parse: string -> S, name: string, content: string, attributes: string, originalText: string, selfClosing: bool): (t: Tag<S>)
    ensures Consistent(t, parse)
  {
    Tag(name, content, attributes, originalText, selfClosing, parse(attributes))
  }

  function GetName<S>(t: Tag<S>): string { t.name }

  function GetOriginalText<S>(t: Tag<S>): string { t.originalText }

  function GetContent<S>(t: Tag<S>): string { t.content }

  function GetAttributes<S>(t: Tag<S>): string { t.attributes }

  function Attrs<S>(t: Tag<S>): S { t.attrs }

  /** Each accessor returns its constructor argument untouched, and the store is built from the fragment. */
  lemma AccessorsReturnArguments<S>(parse: string -> S, name: string, content: string, attributes: string, originalText: string, selfClosing: bool)
    ensures var t := NewTag(parse, name, content, attributes, originalText, selfClosing);
            && GetName(t) == name && GetContent(t) == content
            && GetAttributes(t) == attributes && GetOriginalText(t) == originalText
            && t.selfClosing == selfClosing && Attrs(t) == parse(attributes)
  {
  }

  /** `setContent`: the content is replaced and nothing else changes. */
  function SetContent<S>(t: Tag<S>, content: string): (r: Tag<S>)
    ensures GetContent(r) == content
    ensures r.name == t.name && r.attributes == t.attributes && r.originalText == t.originalText
    ensures r.selfClosing == t.selfClosing && r.attrs == t.attrs
  {
    t.(content := content)
  }

  /** `setAttributes`: the fragment is replaced and the store rebuilt from it; nothing else changes. */
  function SetAttributes<S>(t: Tag<S>, attributes: string, parse: string -> S): (r: Tag<S>)
    ensures GetAttributes(r) == attributes && Consistent(r, parse)
    ensures r.name == t.name && r.content == t.content && r.originalText == t.originalText
    ensures r.selfClosing == t.selfClosing
  {
    t.(attributes := attributes, attrs := parse(attributes))
  }

  /** Construction and both mutators keep the store in step with the fragment. */
  lemma ConsistentPreserved<S>(t: Tag<S>, parse: string -> S, content: string, attributes: string)
    requires Consistent(t, parse)
    ensures Consistent(SetContent(t, content), parse)
    ensures Consistent(SetAttributes(t, attributes, parse), parse)
    ensures Consistent(SetContent(SetAttributes(t, attributes, parse), content), parse)
  {
  }

  /** The self-closing form `toString` writes: name, trimmed attributes, `/>`, with no space between. */
  function SelfClosingText(name: string, a: string): string {
    "<" + name + a + "/>"
  }

  /** The paired form: a space before non-empty attributes, and the trimmed name in the closing tag. */
  function PairedText(name: string, a: string, content: string): string {
    "<" + name + (if a != "" then " " else "") + a + ">" + content + "</" + Trim(name) + ">"
  }

  /** The store's rendering with surrounding whitespace stripped: all `toString` uses of the store. */
  function TrimmedAttrs<S>(t: Tag<S>, render: S -> string): string {
    Trim(render(t.attrs))
  }

  /**
    `toString` as written: the self-closing form only for a self-closing tag
    whose content is still empty, the paired form otherwise (a self-closing tag
    given content is written as a paired one).
   */
  function ToString<S>(t: Tag<S>, render: S -> string): (r: string)
    ensures |r| >= 3 && r[0] == '<' && r[|r| - 1] == '>'
  {
    var a := TrimmedAttrs(t, render);
    if t.selfClosing && t.content == "" then SelfClosingText(t.name, a)
    else PairedText(t.name, a, t.content)
  }

  /** `toString` reads the store only through its trimmed rendering. */
  lemma ToStringThroughTrimmedStore<S>(t: Tag<S>, u: Tag<S>, render: S -> string)
    requires t.name == u.name && t.content == u.content && t.selfClosing == u.selfClosing
    requires TrimmedAttrs(t, render) == TrimmedAttrs(u, render)
    ensures ToString(t, render) == ToString(u, render)
  {
  }

  /**
    The self-closing form with the separating space the paired form has, and
    the name trimmed as the paired form's closing tag trims it.
   */
  function SelfClosingTextIntended(name: string, a: string): string {
    "<" + Trim(name) + (if a != "" then " " else "") + a + "/>"
  }

  /** `toString` with the self-closing form corrected. */
  function ToStringIntended<S>(t: Tag<S>, render: S -> string): (r: string)
    ensures |r| >= 3 && r[0] == '<' && r[|r| - 1] == '>'
    ensures !(t.selfClosing && t.content == "") ==> r == ToString(t, render)
  {
    var a := TrimmedAttrs(t, render);
    if t.selfClosing && t.content == "" then SelfClosingTextIntended(t.name, a)
    else PairedText(t.name, a, t.content)
  }
}

=== FILE: tags.dfy ===
/**
  `ParserTags`: extract every tag of a text, optionally only those with a given
  name, as `Tag` values, and hand them out whole or by exact name.

  The filter of the constructor compares trimmed names; the filter of `getTags`
  compares the stored name as extracted, without trimming.
 */
module Tags {
  import opened Optional
  import opened Text
  import opened Lexing
  import opened Seqs
  import opened Scanner
  import opened DataModel

  /** The parser's state once constructed: the text, the requested name and the tags kept. */
  datatype ParserTags<S> = ParserTags(text: string, tagname: string, tags: seq<Tag<S>>)

  /** The tag `parse` builds from an extracted record. */
  function TagOf<S>(parse: string -> S, r: RawTag): (t: Tag<S>)
    ensures t.name == r.name && t.content == r.content && t.attributes == r.attributes
    ensures t.originalText == r.original && t.selfClosing == r.selfClosing
    ensures Consistent(t, parse)
  {
    NewTag(parse, r.name, r.content, r.attributes, r.original, r.selfClosing)
  }

  /** The tags built from a list of records, one per record, in order. */
  function TagsOf<S>(parse: string -> S, rs: seq<RawTag>): (ts: seq<Tag<S>>)
    ensures |ts| == |rs| && forall k :: 0 <= k < |rs| ==> ts[k] == TagOf(parse, rs[k])
  {
    if rs == [] then [] else [TagOf(parse, rs[0])] + TagsOf(parse, rs[1..])
  }

  /** Building tags from a concatenation builds them from each part. */
  lemma TagsOfAppend<S>(parse: string -> S, a: seq<RawTag>, b: seq<RawTag>)
    ensures TagsOf(parse, a + b) == TagsOf(parse, a) + TagsOf(parse, b)
  {
  }

  /**
    The filter of `parse`: a record is kept when no name was requested or its
    trimmed name equals the trimmed requested name.
   */
  predicate Wanted(tagname: string, r: RawTag) {
    tagname == "" || Trim(r.name) == Trim(tagname)
  }

  /** `Wanted` for one requested name, as a filter argument. */
  function WantedBy(tagname: string): (p: RawTag -> bool)
    ensures forall r :: p(r) == Wanted(tagname, r)
  {
    (r: RawTag) => Wanted(tagname, r)
  }

  /** The records of `text` that `parse` keeps for `tagname`, in the order `find_sub_tags` lists them. */
  function Kept(text: string, tagname: string): seq<RawTag> {
    Filter(FindSubTags(text), WantedBy(tagname))
  }

  /** The tags `parse` stores: one tag per kept record, in order. */
  function Stored<S>(parse: string -> S, text: string, tagname: string): seq<Tag<S>> {
    TagsOf(parse, Kept(text, tagname))
  }

  /** Filtering a prefix one element longer adds that element when it passes. */
  lemma FilterSnoc<T>(xs: seq<T>, i: nat, p: T -> bool)
    requires i < |xs|
    ensures Filter(xs[..i + 1], p) == Filter(xs[..i], p) + (if p(xs[i]) then [xs[i]] else [])
  {
    assert xs[..i + 1] == xs[..i] + [xs[i]];
    FilterAppend(xs[..i], [xs[i]], p);
    assert [xs[i]][1..] == [];
  }

  /** Building the tags of a prefix one record longer adds that record's tag when it is wanted. */
  lemma KeptStep<S>(parse: string -> S, xs: seq<RawTag>, i: nat, tagname: string)
    requires i < |xs|
    ensures TagsOf(parse, Filter(xs[..i + 1], WantedBy(tagname)))
            == TagsOf(parse, Filter(xs[..i], WantedBy(tagname))) + (if Wanted(tagname, xs[i]) then [TagOf(parse, xs[i])] else [])
  {
    FilterSnoc(xs, i, WantedBy(tagname));
    TagsOfAppend(parse, Filter(xs[..i], WantedBy(tagname)), if Wanted(tagname, xs[i]) then [xs[i]] else []);
  }

  /**
    The loop of `parse`: walk the records, skip those whose trimmed name differs
    from the trimmed requested name (when one was requested), and build a tag
    from each other one.
   */
  method BuildWanted<S>(parse: string -> S, records: seq<RawTag>, tagname: string) returns (tags: seq<Tag<S>>)
    ensures tags == TagsOf(parse, Filter(records, WantedBy(tagname)))
  {
    tags := [];
    var i := 0;
    while i < |records|
      invariant 0 <= i <= |records|
      invariant tags == TagsOf(parse, Filter(records[..i], WantedBy(tagname)))
    {
      var citationData := records[i];
      KeptStep(parse, records, i, tagname);
      if tagname != "" && Trim(citationData.name) != Trim(tagname) {
        i := i + 1;
        continue;
      }
      tags := tags + [TagOf(parse, citationData)];
      i := i + 1;
    }
    assert records[..i] == records;
  }

  /** `parse`: the wanted records of `find_sub_tags`, each made a tag, in order. */
  method Parse<S>(parse: string -> S, text: string, tagname: string) returns (tags: seq<Tag<S>>)
    ensures tags == Stored(parse, text, tagname)
  {
    var textTags := FindSubTags(text);
    tags := BuildWanted(parse, textTags, tagname);
  }

  /** The constructor: remember the text and the requested name, then `parse`. */
  method New<S>(parse: string -> S, text: string, tagname: string) returns (p: ParserTags<S>)
    ensures p.text == text && p.tagname == tagname
    ensures p.tags == Stored(parse, text, tagname)
  {
    var tags := Parse(parse, text, tagname);
    p := ParserTags(text, tagname, tags);
  }

  /** PHP's `empty()` of a nullable string: null, the empty string and `"0"`. */
  predicate IsEmpty(name: Option<string>) {
    name == None || name == Some("") || name == Some("0")
  }

  /** The filter of `getTags`: the stored name, untrimmed, equals the requested one. */
  function NamedExactly<S>(name: string): Tag<S> -> bool {
    (t: Tag<S>) => t.name == name
  }

  /**
    `getTags`: every stored tag when the name is empty in PHP's sense, else the
    stored tags whose name is exactly the requested one, in order.
   */
  method GetTags<S>(p: ParserTags<S>, name: Option<string>) returns (out: seq<Tag<S>>)
    ensures IsEmpty(name) ==> out == p.tags
    ensures !IsEmpty(name) ==> out == Filter(p.tags, NamedExactly(name.value))
  {
    if IsEmpty(name) {
      return p.tags;
    }
    out := [];
    var i := 0;
    while i < |p.tags|
      invariant 0 <= i <= |p.tags|
      invariant out == Filter(p.tags[..i], NamedExactly(name.value))
    {
      var tag := p.tags[i];
      FilterSnoc(p.tags, i, NamedExactly(name.value));
      if tag.name == name.value {
        out := out + [tag];
      }
      i := i + 1;
    }
    assert p.tags[..i] == p.tags;
  }

  /**
    The records `parse` keeps are exactly the subsequence of the extracted
    records that have the requested trimmed name and leaves none of them out.
   */
  lemma KeptIsExact(text: string, tagname: string, rs: seq<RawTag>)
    ensures rs == Kept(text, tagname) <==>
            && IsSubsequence(rs, FindSubTags(text))
            && (forall k :: 0 <= k < |rs| ==> Wanted(tagname, rs[k]))
            && |rs| == Count(FindSubTags(text), WantedBy(tagname))
  {
    FilterIsExactSubsequence(rs, FindSubTags(text), WantedBy(tagname));
  }

  /** With no requested name every extracted record is kept. */
  lemma KeptUnfiltered(text: string)
    ensures Kept(text, "") == FindSubTags(text)
  {
    FilterAll(FindSubTags(text), WantedBy(""));
  }

  /** An extracted record with the requested trimmed name is kept. */
  lemma KeptComplete(text: string, tagname: string, r: RawTag)
    requires r in FindSubTags(text) && Wanted(tagname, r)
    ensures r in Kept(text, tagname)
  {
    FilterKeeps(FindSubTags(text), WantedBy(tagname), r);
  }

  /** When no extracted record has the requested trimmed name, nothing is stored. */
  lemma StoredEmptyWithoutName<S>(parse: string -> S, text: string, tagname: string)
    requires forall k :: 0 <= k < |FindSubTags(text)| ==> !Wanted(tagname, FindSubTags(text)[k])
    ensures Stored(parse, text, tagname) == []
  {
    FilterNone(FindSubTags(text), WantedBy(tagname));
  }

  /**
    Every stored tag was built from a match in the text: its original text is a
    piece of the input, it has the requested trimmed name, its store is built
    from its fragment, and it has the shape of the pattern that matched it.
   */
  lemma StoredTagsFromText<S>(parse: string -> S, text: string, tagname: string, k: nat)
    requires k < |Stored(parse, text, tagname)|
    ensures var t := Stored(parse, text, tagname)[k];
            && (exists a: nat, b: nat :: a <= b <= |text| && t.originalText == text[a..b])
            && (tagname != "" ==> Trim(t.name) == Trim(tagname))
            && Consistent(t, parse)
            && exists r :: r in FindSubTags(text) && t == TagOf(parse, r)
                           && (if r.selfClosing then SelfClosingMatcher.SelfClosingShape(r) else PairedMatcher.PairedShape(r))
  {
    var kept := Kept(text, tagname);
    var r := kept[k];
    assert Wanted(tagname, r);
    SubsequenceMembers(kept, FindSubTags(text), r);
    var j :| 0 <= j < |FindSubTags(text)| && FindSubTags(text)[j] == r;
    FindSubTagsShape(text, j);
  }

  /** Whether a record's name, as extracted, is exactly `name`. */
  function RecordNamed(name: string): RawTag -> bool {
    (r: RawTag) => r.name == name
  }

  /**
    Selecting built tags by exact name is building tags from the records
    selected by exact name.
   */
  lemma {:induction false} NamedTagsOf<S>(parse: string -> S, rs: seq<RawTag>, name: string)
    ensures Filter(TagsOf(parse, rs), NamedExactly(name)) == TagsOf(parse, Filter(rs, RecordNamed(name)))
    decreases |rs|
  {
    if rs != [] {
      NamedTagsOf(parse, rs[1..], name);
      assert TagsOf(parse, rs)[1..] == TagsOf(parse, rs[1..]);
    }
  }

  /**
    `getTags` with a non-empty name after an unfiltered construction: the tags
    built from the extracted records whose name, untrimmed, is exactly that name.
   */
  lemma GetTagsOfUnfiltered<S>(parse: string -> S, text: string, name: string)
    ensures Filter(Stored(parse, text, ""), NamedExactly(name)) == TagsOf(parse, Filter(FindSubTags(text), RecordNamed(name)))
  {
    KeptUnfiltered(text);
    NamedTagsOf(parse, FindSubTags(text), name);
  }

  /** Building tags keeps a subsequence a subsequence. */
  lemma {:induction false} TagsOfSubsequence<S>(parse: string -> S, r: seq<RawTag>, xs: seq<RawTag>)
    requires IsSubsequence(r, xs)
    ensures IsSubsequence(TagsOf(parse, r), TagsOf(parse, xs))
    decreases |xs|
  {
    if r != [] {
      assert TagsOf(parse, xs)[1..] == TagsOf(parse, xs[1..]);
      if r[0] == xs[0] && IsSubsequence(r[1..], xs[1..]) {
        TagsOfSubsequence(parse, r[1..], xs[1..]);
        assert TagsOf(parse, r)[1..] == TagsOf(parse, r[1..]);
      } else {
        TagsOfSubsequence(parse, r, xs[1..]);
      }
    }
  }

  /** The tags stored for a requested name are an order-preserving selection of those stored for none. */
  lemma StoredIsSubsequenceOfUnfiltered<S>(parse: string -> S, text: string, tagname: string)
    ensures IsSubsequence(Stored(parse, text, tagname), Stored(parse, text, ""))
  {
    KeptUnfiltered(text);
    TagsOfSubsequence(parse, Kept(text, tagname), FindSubTags(text));
  }
}

=== FILE: text.dfy ===
/**
  Character classes and string helpers shared by the scanners and the extractor:
  the `[a-zA-Z0-9]` and `\s` classes of the two match patterns, ASCII case folding
  for the case-insensitive back-reference, and PHP's `trim()`.
 */
module Text {

  /** `[a-zA-Z0-9]`, the tag-name character class of both patterns. */
  predicate IsAlnum(c: char) {
    ('a' <= c <= 'z') || ('A' <= c <= 'Z') || ('0' <= c <= '9')
  }

  /** A name as the paired pattern captures it: one or more alphanumerics. */
  predicate IsName(s: string) {
    |s| > 0 && forall i :: 0 <= i < |s| ==> IsAlnum(s[i])
  }

  /** `\s` of PCRE2 without Unicode properties: space, tab, LF, VT, FF and CR. */
  predicate IsSpace(c: char) {
    c == ' ' || c == '\t' || c == '\n' || c == '\U{B}' || c == '\U{C}' || c == '\r'
  }

  /**
    The characters PHP's `trim()` strips by default: space, tab, LF, CR, NUL and
    VT. Form feed is whitespace for the patterns but is not stripped by `trim()`.
   */
  predicate IsTrimmable(c: char) {
    c == ' ' || c == '\t' || c == '\n' || c == '\r' || c == '\0' || c == '\U{B}'
  }

  predicate AllTrimmable(s: string) {
    forall i :: 0 <= i < |s| ==> IsTrimmable(s[i])
  }

  /** A run of `k` space characters. */
  function Spaces(k: nat): (r: string)
    ensures |r| == k && forall i :: 0 <= i < k ==> r[i] == ' '
  {
    if k == 0 then [] else Spaces(k - 1) + [' ']
  }

  /** `ltrim()`: drop trimmable characters from the front. */
  function TrimLeft(s: string): (r: string)
    ensures |r| <= |s|
    ensures r == [] || !IsTrimmable(r[0])
  {
    if |s| == 0 || !IsTrimmable(s[0]) then s else TrimLeft(s[1..])
  }

  /** `rtrim()`: drop trimmable characters from the back. */
  function TrimRight(s: string): (r: string)
    ensures |r| <= |s|
    ensures r == [] || (r[0] == s[0] && !IsTrimmable(r[|r| - 1]))
  {
    if |s| == 0 || !IsTrimmable(s[|s| - 1]) then s else TrimRight(s[..|s| - 1])
  }

  /** `ltrim()` keeps a suffix and drops only trimmable characters. */
  lemma {:induction false} TrimLeftSuffix(s: string)
    ensures TrimLeft(s) == s[|s| - |TrimLeft(s)|..]
    ensures AllTrimmable(s[..|s| - |TrimLeft(s)|])
  {
    if |s| > 0 && IsTrimmable(s[0]) {
      var r := TrimLeft(s[1..]);
      TrimLeftSuffix(s[1..]);
      assert s[..|s| - |r|] == [s[0]] + s[1..][..|s| - 1 - |r|];
    }
  }

  /** `rtrim()` keeps a prefix and drops only trimmable characters. */
  lemma {:induction false} TrimRightPrefix(s: string)
    ensures TrimRight(s) == s[..|TrimRight(s)|]
    ensures AllTrimmable(s[|TrimRight(s)|..])
  {
    if |s| > 0 && IsTrimmable(s[|s| - 1]) {
      var r := TrimRight(s[..|s| - 1]);
      TrimRightPrefix(s[..|s| - 1]);
      assert s[|r|..] == s[..|s| - 1][|r|..] + [s[|s| - 1]];
    }
  }

  /** PHP's `trim()`: strip trimmable characters from both ends. */
  function Trim(s: string): (r: string)
    ensures |r| <= |s|
    ensures r == [] || (!IsTrimmable(r[0]) && !IsTrimmable(r[|r| - 1]))
  {
    TrimRight(TrimLeft(s))
  }

  /**
    What `trim()` strips is all trimmable: the result is the infix of `s` left
    between a trimmable prefix and a trimmable suffix.
   */
  lemma TrimIsInfix(s: string)
    ensures exists i :: 0 <= i <= |s| - |Trim(s)| && Trim(s) == s[i..][..|Trim(s)|]
                        && AllTrimmable(s[..i]) && AllTrimmable(s[i..][|Trim(s)|..])
  {
    var l := TrimLeft(s);
    var r := TrimRight(l);
    var i := |s| - |l|;
    TrimLeftSuffix(s);
    TrimRightPrefix(l);
    assert r == s[i..][..|r|];
    assert AllTrimmable(s[i..][|r|..]) by {
      assert s[i..][|r|..] == l[|r|..];
    }
  }

  /** A string with no trimmable character at either end is its own trim. */
  lemma TrimOfUntrimmed(s: string)
    requires s == [] || (!IsTrimmable(s[0]) && !IsTrimmable(s[|s| - 1]))
    ensures Trim(s) == s
  {
  }

  /** A space before an already trimmed string is stripped again. */
  lemma TrimSpacePrefix(a: string)
    requires Trim(a) == a
    ensures Trim(" " + a) == a
  {
    assert (" " + a)[1..] == a;
    assert TrimLeft(" " + a) == TrimLeft(a);
  }

  /** Trailing spaces after a name are stripped by `trim()`. */
  lemma {:induction false} TrimNameSpaces(n: string, k: nat)
    requires IsName(n)
    ensures Trim(n + Spaces(k)) == n
  {
    if k == 0 {
      assert n + Spaces(0) == n;
      TrimOfUntrimmed(n);
    } else {
      var s := n + Spaces(k);
      assert TrimLeft(s) == s;
      assert s[..|s| - 1] == n + Spaces(k - 1);
      TrimNameSpaces(n, k - 1);
      assert TrimLeft(n + Spaces(k - 1)) == n + Spaces(k - 1);
    }
  }

  /** ASCII lower-casing; the only case folding the caseless patterns perform. */
  function LowerAscii(c: char): char {
    if 'A' <= c <= 'Z' then (c as int + 32) as char else c
  }

  /** Equality up to ASCII case, as the `/i` back-reference compares names. */
  predicate EqualsIgnoreCase(a: string, b: string) {
    |a| == |b| && forall i :: 0 <= i < |a| ==> LowerAscii(a[i]) == LowerAscii(b[i])
  }
}
